=== FILE: README.md ===
# Refactoring Swarm: a verified model of the repair engine

The Refactoring Swarm repairs Python files in a loop. An auditor lists a file's
issues and a fixer rewrites the file. A judge then generates pytest tests, runs
them and turns the failures into fix instructions. If the tests fail, the fixer
and the judge go again, for at most ten rounds. At the end, a tolerance rule may
still accept a run that passes at least 90% of its tests.

This project models that engine in Dafny and proves what it promises. It covers:

- **The test-result interpreter** (`PytestOutput`, `Failures`, `Judge`):
  - reading the pass/fail/error counters out of pytest's text output;
  - the collection-error and nothing-collected short cuts;
  - extracting the error logs;
  - the per-failure fix instructions with their error type, details and advice;
  - what `run_tests` and `judge` return for a completed run, a timeout, an
    exception and a failed test generation.
- **The tolerance evaluator** (`Judge.EvaluateWithTolerance`). The
  `passed / total >= 0.90` test is computed exactly as `10 * passed >= 9 * total`.
- **The repair loop and the mission** (`Swarm`):
  - `process_file` as a trace of collaborator calls;
  - the auditor, fixer and judge answers as an input environment;
  - the tally of `run_swarm`;
  - the exit status of `main`.
- **The fixer** (`Fixer`): code extraction from a model reply and the decisions
  of `apply_fixes`.
- **The auditor's pure helpers** (`Auditor`):
  - the JSON slice of a reply and the `setdefault` chain;
  - the pylint fallback analysis and the error analysis;
  - the issue counting and truncation of the report.
- **The file tools** (`FileOperations`, `CodeAnalyzer`):
  - the sandbox write guard and `is_safe_path`;
  - the dangerous-pattern scan;
  - the `.py` filter;
  - line counting and pylint score extraction.

`Wrappers` holds `Option` and `Result`. `Text` models the Python string
operations the code relies on: `in`, `find`, `rfind`, `split`, `join`,
`strip`, `lower`, `startswith`, `endswith` and slicing. `Instructions` holds the
fix-instruction record shared by all agents.

Behaviours kept as the code has them:

- Output with every counter at 0 and the phrase `collected 0 items` parses as
  `(0, 0, 0)`. `run_tests` therefore reports success
  (`PytestOutput.ParseZeroIff`, `Judge.RunTestsSucceedsIff`).
- The repair loop subscripts `judge_result['test_results']` on main.py:173 without
  a `None` guard. A failed verdict from a failed test generation therefore raises
  a `TypeError`. This is modelled as a `Failure` outcome of
  `Swarm.ProcessFile`, which `Swarm.RunSwarm` propagates and `Swarm.ExitCode`
  maps to status 1.
- `_create_error_analysis` reports `estimated_fixes` 0 although it lists one
  issue (`Auditor.CreateErrorAnalysis`).
- The default of `estimated_fixes` is evaluated before `setdefault` runs. An
  `issues` value without a length therefore makes `_parse_llm_response` raise
  even when `estimated_fixes` is present (`Auditor.WithDefaults`).

Behaviours a reader may not expect:

- `_analyze_failures_for_fixer` can return no instruction at all for a failing
  run. This happens when there is no failure section, no short-summary entry and
  neither `FAILED` nor `ERROR` in the output (`Failures.AnalyzeFailuresEmptyIff`).
  The repair loop in main.py then sends its own single fallback issue, so the
  fixer never receives an empty list (`Swarm.IssuesFor`,
  `Swarm.RepairIssuesNonEmpty`).
- The detected error type is never `ZeroDivisionError`, `ImportError` or
  `NameError`. Detection looks only for KeyError, TypeError, ValueError,
  AttributeError and IndexError, and defaults to AssertionError
  (`Failures.DetectErrorTypeIsFirst`).
- Not every failure inside a round is absorbed. The missing-test-results
  `TypeError` escapes `process_file` and ends the whole mission.
- The process exits 0 when the agents fail to initialise or no Python file is
  found. In those cases the mission has no `files_failed` entry
  (`Swarm.ExitCode`).
- `MIN_TESTS_FOR_TOLERANCE` changes only the reason text, never the decision
  (`Judge.EvaluateWithTolerance`).

## Model

| member | source | states |
|---|---|---|
| PytestOutput.FirstNumberWordIsLeftmost | src/agents/judge.py:472-484 | the search for `(\d+)\s+<word>` from a position finds the leftmost match at or after it, and reports none only when no later position matches |
| PytestOutput.SearchCountIsLeftmost | src/agents/judge.py:472-484 | `re.search` followed by `int(group(1))` fails exactly when the pattern matches nowhere in the line; otherwise it reads the number of the leftmost match |
| PytestOutput.LeftmostMatchReadsWholeNumber | src/agents/judge.py:472-474 | the leftmost match starts at the beginning of a digit run, so a counter like `12 passed` is read as 12 and never as 2 |
| PytestOutput.DecimalValue | src/agents/judge.py:474 | `int()` of a number's decimal rendering gives back the number |
| PytestOutput.ReadsRenderedCount | src/agents/judge.py:472-484 | a counter printed the way pytest prints it, `<n> <word>`, is read back as exactly n (print/read round trip) |
| PytestOutput.ScanStep | src/agents/judge.py:468-484 | on a line holding `=====` together with `passed` or `failed`, each counter that the line reports is overwritten and the others keep their value; any other line changes nothing |
| PytestOutput.ScanPrefixReadsLastReport | src/agents/judge.py:468-484 | after any number of lines, each counter equals its value on the last summary line so far that reports it, or 0 when none does |
| PytestOutput.ScanReadsLastReport | src/agents/judge.py:468-484 | over the whole output, each counter is the value on the last summary line reporting it, 0 if none |
| PytestOutput.FirstCollectedIsLeftmost | src/agents/judge.py:489 | the search for `collected\s+(\d+)\s+item` finds the leftmost match |
| PytestOutput.CollectedCountIsLeftmost | src/agents/judge.py:489-491 | the collected count is absent exactly when the phrase occurs nowhere, and otherwise is the number of its leftmost occurrence |
| PytestOutput.ParsePytestOutput | src/agents/judge.py:439-503 | a collection error or an empty collection gives exactly (0, 0, 1) whatever the summary says; otherwise the scanned counters, unless all are 0; then (0, 0, 1) unless pytest announced 0 collected items |
| PytestOutput.ParseZeroIff | src/agents/judge.py:487-497 | the parser returns all-zero counters if and only if no collection failure occurred, the last summary line reporting each counter gives 0 (or none reports it), and the output says it collected 0 items |
| PytestOutput.CapturedIffOpenTrigger | src/agents/judge.py:510-520 | a line is captured exactly when some line at or before it contains FAILURES, ERRORS or ERROR and no line from that one up to it mentions a short test summary (case-insensitively) |
| PytestOutput.ErrorLinesCaptured | src/agents/judge.py:510-520 | the collected error lines are exactly the captured lines: each comes from a captured line, each captured line is kept, and the list is empty iff nothing was captured |
| PytestOutput.ErrorLinesPrefix | src/agents/judge.py:510-520 | the lines collected so far stay a prefix of those collected later, so the error lines keep the output's order |
| PytestOutput.LastLines | src/agents/judge.py:524 | `lines[-30:]` has the length min(30, number of lines) and is a suffix of the lines |
| PytestOutput.ErrorLogsWithoutTrigger | src/agents/judge.py:522-524 | without a trigger line the logs are the last 30 lines rejoined, hence the whole output when it has at most 30 lines |
| PytestOutput.ErrorLogsWithCapture | src/agents/judge.py:526 | once any line is captured, the logs are the captured lines joined by newlines |
| Failures.DetectErrorType | src/agents/judge.py:657-667 | the detected type is AssertionError or one of the five catalog names |
| Failures.DetectErrorTypeIsFirst | src/agents/judge.py:657-667 | the type is AssertionError exactly when no catalog name occurs in the section; otherwise it is the first catalog name, in KeyError, TypeError, ValueError, AttributeError, IndexError order, that occurs; never ZeroDivisionError, ImportError or NameError |
| Failures.Lookup | src/agents/judge.py:779 | a dictionary lookup that succeeds only with a catalog entry for the key and fails only when no entry has that key |
| Failures.GenerateFixSuggestion | src/agents/judge.py:764-785 | the suggestion is at most the advice plus the detail label plus 300 characters of message |
| Failures.GenerateFixSuggestionSpec | src/agents/judge.py:779-785 | the suggestion starts with the type's advice, is only that advice for an empty message, ends with the detail label and the first 300 characters of the message otherwise, and names an unknown error type |
| Failures.Clip | src/agents/judge.py:639 | `strip()[:n]` is never longer than n |
| Failures.ClipOr | src/agents/judge.py:637-646 | a missing capture gives the empty default, a present one at most n characters |
| Failures.DescriptionParts | src/agents/judge.py:670-677 | the description's first line is always the headline naming the failed test |
| Failures.SuggestionParts | src/agents/judge.py:682-687 | the suggestion's last line is always the advice from `_generate_fix_suggestion` |
| Failures.ParseFailureDetails | src/agents/judge.py:613-691 | a section's instruction is a high-severity bug about that test with the detected error type; actual and expected are at most 200 characters, error details at most 500, and empty when nothing was captured; the called function is carried over |
| Failures.FailureDetailsMention | src/agents/judge.py:669-689 | the description starts with `Test '<name>' a échoué` and mentions expected, actual and details when present; the suggestion ends with the type advice and mentions the called function and the returned-versus-expected values when known |
| Failures.DescriptionMentions | src/agents/judge.py:670-679 | the joined description keeps the headline first and contains each present captured value with its label |
| Failures.SuggestionMentions | src/agents/judge.py:682-689 | the joined suggestion ends with the advice and contains the function and comparison lines when they exist |
| Failures.SummaryInstruction | src/agents/judge.py:587-597 | a short-summary entry becomes a high-severity bug about that test and error type, with its message clipped to 500 characters as details and a suggestion starting with the type's advice |
| Failures.RawLogInstruction | src/agents/judge.py:600-609 | the raw-log instruction is a high-severity bug about test `unknown` with type `TestFailure` |
| Failures.RawLogCarriesLogs | src/agents/judge.py:601-608 | the raw-log instruction's suggestion ends with the extracted error logs |
| Failures.SectionInstruction | src/agents/judge.py:571-579 | each failure section gives an instruction tagged with the section's test name |
| Failures.SectionNames | src/agents/judge.py:586 | the set of existing test names holds exactly the names of the sections |
| Failures.Uncovered | src/agents/judge.py:586-588 | the summary entries kept are exactly those whose test has no section; with no section every entry is kept, duplicates included |
| Failures.UncoveredAppend | src/agents/judge.py:586-588 | the filter distributes over concatenation, so kept entries stay in order and are not deduplicated against each other |
| Failures.StructuredCoversTests | src/agents/judge.py:571-597 | section i gives instruction i; every summary entry is covered by its section or by an instruction of its own; no summary instruction repeats a test that has a section; all are high-severity bugs with a test name |
| Failures.AnalyzeCoversTests | src/agents/judge.py:564-611 | the coverage facts, for any instruction builders that tag their instruction with its test; without sections and summary entries the result is empty or the single raw-log instruction |
| Failures.AnalyzeFailuresCoversTests | src/agents/judge.py:552-611 | every failing test the output names gets an instruction (sections first, in order), every instruction is a high-severity bug about a named test, and with nothing structured found the result is nothing or the raw-log instruction |
| Failures.AnalyzeFailuresEmptyIff | src/agents/judge.py:599-611 | the analysis is empty if and only if there is no section, no summary entry and neither FAILED nor ERROR in the output |
| Judge.Unfinished | src/agents/judge.py:208-259 | a run that did not complete fails with counts (0, 0, 1), the message as output and logs, and exactly one high-severity bug instruction |
| Judge.RunTests | src/agents/judge.py:106-259 | success iff no failure and no error; on success the logs and instructions are empty; a timeout or exception gives (0, 0, 1) with one high-severity bug; a failing completed run carries the extracted logs and the failure analysis of stdout followed by stderr |
| Judge.RunTestsSucceedsIff | src/agents/judge.py:137-142 | a completed run succeeds iff the output is not a collection failure, the last summary reports give 0 failed and 0 errors, and some test passed or 0 items were collected |
| Judge.JudgeFile | src/agents/judge.py:261-319 | results are missing exactly when tests had to be generated and generation failed; otherwise they are `run_tests`' results; success and the PASS verdict both mean the results succeeded; a generation failure gives one high-severity bug |
| Judge.EvaluateWithTolerance | src/agents/judge.py:693-762 | acceptable iff results exist, the total is positive and passed/total ≥ 0.90; no results or no tests give the matching reason; the pass rate is passed over total; the 10-test minimum only picks the reason |
| Judge.ToleranceMonotone | src/agents/judge.py:736-762 | with the total fixed, passing more tests never turns acceptance into rejection |
| Judge.ToleranceBounds | src/agents/judge.py:725-762 | an accepted result has at most one failure or error per ten tests, and a fully passing run with at least one test is accepted |
| Fixer.FencedBody | src/agents/fixer.py:92-97 | the text taken from a reply never contains a fence, and is the whole reply when the reply has no fence |
| Fixer.ExtractCode | src/agents/fixer.py:92-97 | extracted code contains no fence, and a reply without fences is only stripped |
| Fixer.ExtractBetweenFences | src/agents/fixer.py:95-96 | without a `python` tag the code is the stripped text between the first and the second fence |
| Fixer.ExtractAfterPythonTag | src/agents/fixer.py:93-94 | with a `python` tag the code is the stripped text between the first "```python" and the next fence, when no run of four backticks follows the tag |
| Fixer.ExtractIdempotent | src/agents/fixer.py:92-97 | extracting from extracted code changes nothing |
| Fixer.ApplyFixes | src/agents/fixer.py:19-76 | no issues return "1" without reading or writing; a failed read escapes; a write happens exactly when the reply yields non-empty code and the path passes the sandbox guard, writes exactly that code to the file and returns it; every other case returns "0" or "1" |
| FileOperations.PythonFiles | src/tools/file_operations.py:22-27 | the kept entries are exactly the walked files whose name ends in `.py` |
| FileOperations.PythonFilesAppend | src/tools/file_operations.py:23-26 | filtering never reorders: filtering two walks in sequence is filtering each in turn |
| FileOperations.IsSafePath | src/tools/file_operations.py:77-93 | a path is safe iff one of the allowed directory names (`sandbox` and `test` by default) occurs in its absolute form |
| FileOperations.AnyOccurs | src/tools/file_operations.py:93 | `any(d in path ...)` holds iff some listed name occurs in the path |
| FileOperations.WriteFile | src/tools/file_operations.py:50-69 | the write is refused iff the absolute path contains neither `sandbox` nor `test`, and otherwise writes exactly the content to the path |
| FileOperations.WriteGuardIsDefaultSafePath | src/tools/file_operations.py:61-63 | the write guard accepts exactly the paths `is_safe_path` accepts with its default directories |
| FileOperations.Warnings | src/tools/file_operations.py:121-123 | there are no warnings iff no pattern occurs in the code, and never more warnings than patterns |
| FileOperations.WarningsMatchPatterns | src/tools/file_operations.py:121-123 | each warning comes from a pattern that occurs in the code, and each occurring pattern has its warning |
| FileOperations.WarningsInOrder | src/tools/file_operations.py:121-123 | one warning per occurring pattern, in blacklist order: the warning of pattern k follows exactly those of the occurring patterns before it |
| FileOperations.ValidatePythonCode | src/tools/file_operations.py:96-128 | the code is safe iff none of the seven patterns occurs; the warnings are one per occurring pattern (at most seven) and each names a pattern that occurs |
| Auditor.JsonLen | src/agents/auditor.py:231 | `len` is defined exactly on arrays, strings and objects |
| Auditor.JsonSlice | src/agents/auditor.py:220-223 | a slice exists iff the reply holds a `{` and its last `}` comes after the first `{` |
| Auditor.JsonSliceIsWidest | src/agents/auditor.py:220-224 | the parsed text opens with `{`, closes with `}`, and no `{` precedes it and no `}` follows it in the reply |
| Auditor.SetDefault | src/agents/auditor.py:227-232 | `setdefault` adds the key, keeps every present value, and stores the default only for a missing key |
| Auditor.Defaulted | src/agents/auditor.py:227-230 | after the first four defaults the `issues` key is present |
| Auditor.WithDefaults | src/agents/auditor.py:227-232 | filling the defaults raises iff `issues` is present and has no length, even when `estimated_fixes` exists; otherwise every given key keeps its value |
| Auditor.WithDefaultsKeys | src/agents/auditor.py:227-232 | the result holds exactly the given keys and the six required ones |
| Auditor.WithDefaultsFillsMissing | src/agents/auditor.py:227-230 | each of `file_path`, `pylint_score`, `issues`, `refactoring_priority` that was missing gets its default |
| Auditor.WithDefaultsCountsIssues | src/agents/auditor.py:231-232 | a missing `estimated_fixes` becomes the number of issues in the result, and a missing `summary` the default summary |
| Auditor.WithDefaultsIdempotent | src/agents/auditor.py:227-232 | filling the defaults into a filled result changes nothing |
| Auditor.ParseLlmResponse | src/agents/auditor.py:217-236 | it fails with no JSON object iff there is no brace slice; it succeeds only when the slice decodes to an object, whose keys then get the defaults |
| Auditor.MessageSeverity | src/agents/auditor.py:261 | type `error` maps to HIGH, `warning` to MEDIUM, anything else (missing included) to LOW |
| Auditor.SyntaxIssue | src/agents/auditor.py:250-257 | an invalid syntax check becomes a high-severity bug at its line or 0 carrying the error text |
| Auditor.FallbackIssues | src/agents/auditor.py:247-268 | the fallback has one issue for an invalid syntax plus one per pylint message, up to 20 messages |
| Auditor.FallbackIssuesInOrder | src/agents/auditor.py:249-268 | the syntax issue comes first when present, then the first 20 messages in their order |
| Auditor.CreateFallbackAnalysis | src/agents/auditor.py:238-277 | the issues are the syntax issue (when invalid) then the first 20 pylint messages in order; `estimated_fixes` is the number of issues, at most 21; the path, score and summary come from the inputs |
| Auditor.FallbackHighIffError | src/agents/auditor.py:250-268 | a fallback issue is high-severity iff it is the syntax issue or comes from a pylint message of type `error` |
| Auditor.CreateErrorAnalysis | src/agents/auditor.py:279-294 | exactly one high-severity bug at line 0 carrying the error, score 0.0, no priorities, 0 estimated fixes, and a summary ending with the error |
| Auditor.ReportHeader | src/agents/auditor.py:347-360 | the header states the number of analyses and the total number of issues, and lists no issue |
| Auditor.IssueLines | src/agents/auditor.py:370-371 | one report line per issue, in order, with its severity, line and description |
| Auditor.ListedBlockCounts | src/agents/auditor.py:368-374 | when its first five issues have lines (later issues need none), a file lists min(5, issues) issues and has one "... et N autres problèmes" line, with N = issues − 5, exactly when it has more than 5 |
| Auditor.FileBlockCounts | src/agents/auditor.py:362-376 | when its first five issues have lines, a file's block lists its first five issues at most and gives the number of the rest when there are more |
| Auditor.FileBlocksCounts | src/agents/auditor.py:362-377 | when every file's first five issues have lines, over all files, the listed issues add up per file and the "more" counts appear in file order |
| Auditor.ReportRaisesIff | src/agents/auditor.py:368-371 | the report raises `KeyError: 'line'` exactly when one of a file's first five issues has no line; issues beyond the fifth may lack one |
| Auditor.ReportCounts | src/agents/auditor.py:338-380 | a report that does not raise lists the first five issues of each file, one "more" line per file with more than five giving its unlisted count, and never lists more issues than it states in total |
| Auditor.ListedBelowTotal | src/agents/auditor.py:353-374 | the listed issues never outnumber the stated total |
| Auditor.IssueTotalAppend | src/agents/auditor.py:353 | the stated total of issues adds up over any split of the analyses |
| CodeAnalyzer.BlankCount | src/tools/code_analyzer.py:147 | there are never more blank lines than lines |
| CodeAnalyzer.CommentCount | src/tools/code_analyzer.py:148 | there are never more comment lines than lines |
| CodeAnalyzer.BlankIsNotComment | src/tools/code_analyzer.py:147-148 | no line is both blank and a comment |
| CodeAnalyzer.BlankAndCommentsFit | src/tools/code_analyzer.py:146-149 | blank and comment lines together never outnumber the lines, so the code count is never negative |
| CodeAnalyzer.CountLines | src/tools/code_analyzer.py:128-158 | a failed read gives all zeros; otherwise total, blank and comment counts are those of the lines, and code = total − blank − comments ≥ 0 |
| CodeAnalyzer.LineScore | src/tools/code_analyzer.py:99-105 | a line yields a score only when it holds `rated at` in both its lower-cased and its original form, and the score is the parse of the stripped text between `rated at` and the next `/` |
| CodeAnalyzer.CaseMismatchYieldsNothing | src/tools/code_analyzer.py:99-105 | a line mentioning `rated at` only in another case yields no score (the split raises IndexError and is skipped) |
| CodeAnalyzer.FirstScore | src/tools/code_analyzer.py:98-107 | the score is that of the first line yielding one, 0.0 when none does |
| CodeAnalyzer.ExtractPylintScore | src/tools/code_analyzer.py:86-107 | empty output gives 0.0; otherwise the score of the first line that yields one, or 0.0 |
| Swarm.IssuesFor | main.py:176-192 | the fixer receives the judge's instructions when there are some, otherwise one high-severity bug at line 0; never an empty list |
| Swarm.FileResult.Error | main.py:134-152 | an early return's error starts with "Audit failed: " exactly when the audit raised and with "Fix failed: " exactly when the initial fix raised, and ends with the exception's message |
| Swarm.ProcessFile | main.py:113-252 | an audit or initial-fix exception returns at once without judging; otherwise the trace is audit, initial fix, generating judgement, repair steps, and it ends after a judgement or a fix that raised, so every fix that did not raise is judged again; the iterations are at most 10, equal the repair fixes, end on success or at 10, and are 0 when the first verdict succeeds; the only escaping exception is the missing-test-results TypeError |
| Swarm.Judgements | main.py:161-252 | from the first judgement on, ending after a judgement or a fix that raised: a result built from the last verdict and the loop's iteration count, or the TypeError after a failed verdict without test results |
| Swarm.Repair | main.py:168-205 | the loop makes one fixer call per iteration, follows each fix that did not raise with a judgement, and stops at a success or after 10 iterations; it crashes only on a failed verdict without test results, before the tenth iteration; it makes no call when the first verdict succeeds |
| Swarm.NextStepDetermined | main.py:168-205 | after any trace, the next repair step is fixed by the collaborators' answers: a new round's fix only after a judgement or a raised fix, a re-judgement only after a fix that did not raise |
| Swarm.TracesAgree | main.py:161-205 | two pipeline traces with the same collaborators' answers agree on their common length |
| Swarm.ExtensionIsARound | main.py:168-201 | a trace ending after a judgement or a raised fix continues only with a new round's fix, after a failed verdict with test results |
| Swarm.ProcessedIsFunctional | main.py:113-252 | `process_file`'s contract admits exactly one trace and one outcome for given collaborators' answers, so the result and the iteration count are determined |
| Swarm.StopsAtFirstSuccess | main.py:168-205 | in a pipeline trace every verdict but the last failed and carried test results: nothing follows the first successful verdict or a failed one without results |
| Swarm.Round | main.py:169-205 | a round fixes the issues of the current verdict; a raising fixer skips the re-judgement and keeps the verdict, otherwise the judge runs again without regenerating tests |
| Swarm.Conclude | main.py:210-252 | the tolerance check is applied exactly when the verdict failed and carries test results; final success is judge success or tolerance acceptance; the test counts are 0 without results |
| Swarm.GeneratesOnce | main.py:165-205 | the pipeline passes `regenerate_tests=True` to the first judgement only; every later judgement gets False |
| Swarm.RepairIssuesNonEmpty | main.py:176-198 | every fixer call of the repair loop receives a non-empty issue list |
| Swarm.RaisedFixSkipsJudge | main.py:197-201 | a fixer call that raised is never directly followed by a judgement |
| Swarm.SuccessCount | main.py:82-85 | the number of successful files never exceeds the number of files |
| Swarm.RunSwarm | main.py:18-110 | an initialisation failure and an empty file list return at once without processing a file; otherwise the files are processed in order, each outcome being what `process_file` does with that file (`Swarm.Processed`); the mission fails exactly when the last processed file raised, with that exception, every earlier file having returned; otherwise the details are the files' results in order, processed = success + failed = number of files, and success counts the successful results |
| Swarm.ProcessAll | main.py:77-86 | the files are processed in order, each outcome being what `process_file` does with that file; the loop stops right after the first file that raises, and otherwise covers every file; the details are the results of the files that returned, in order |
| Swarm.ExitCode | main.py:255-281 | the status is 1 for a missing directory or an escaping exception, 0 after an initialisation failure or with no file, and with a tally 0 exactly when no file failed |
| Swarm.ExitCodeSpec | main.py:276-281 | with a tally, the process exits 0 if and only if the directory exists and every processed file succeeded |
| Swarm.AllSucceeded | main.py:82-85 | the success count equals the number of files exactly when every file succeeded |

## Left out

- The model calls, the prompt builders, `log_experiment` and every `print` are
  not modelled. Their effects on the modelled values are inputs (the fixer's
  reply, the auditor's result) or nothing.
- Running pytest and pylint as subprocesses is not modelled, nor are their
  timeouts. `run_tests` receives the run's outcome as completed, timed out or
  raised.
- File I/O (`open`, `os.walk`, `os.makedirs`, `os.path.exists`,
  `os.path.abspath`, `os.path.join`) is not modelled. Reads are `Result`
  inputs and paths arrive already absolute. The walk is a sequence of
  (directory, name) entries.
- The regular expressions that split the output into failure sections, collect
  the short-summary entries and pick details out of a section are parameters
  (`Failures.Extractors`). The model proves what is done with what they find,
  not how they find it. The counter regexes and the `collected N item` regex are
  modelled exactly, except that their `\d` is limited to ASCII digits. Their
  `\s` is Python's full whitespace set, the characters `str.isspace` accepts
  (`Text.IsSpace`).
- `Text.Lower` maps ASCII letters only; Unicode case mapping is not modelled.
  `Text.Strip` removes every character `str.isspace` accepts, Unicode spaces
  included.
- `json.loads` and `float()` are abstract parameters.
- `check_syntax`, `run_pylint`, `run_pylint_text`, `generate_tests`,
  `analyze_file` and `analyze_directory` are not modelled. Only their results
  enter the model.
- Floating point is not modelled:
  - the pass rate is the exact fraction passed/total;
  - the average score is not formatted;
  - the report's line texts are kept as line kinds carrying their values.
- Swarm.ProcessFile: does not carry the initial and final pylint scores, which
  come from pylint runs outside the model.
- Swarm.FileResult.Error: the early-return record keeps the agent and the
  exception message separately; the text is produced by this function.
- Auditor.ReportRaisesIff: holds for issues that carry a severity and a
  description, as every issue of this model does. An issue decoded from the
  LLM's JSON reply may lack either key; the report then raises
  `KeyError: 'severity'` or `KeyError: 'description'` (src/agents/auditor.py:371),
  which is not modelled.
- Swarm.GeneratesOnce: states the `regenerate_tests` argument main.py passes.
  The judge still generates tests on a later call when the test file is
  missing (src/agents/judge.py:287); that call's verdict is an input here.
- Fixer.ExtractAfterPythonTag: proved only when no run of four backticks
  follows the first "```python". The code splits on "```python" before it
  splits on "```". A fence that overlaps a later "```python" therefore cuts
  the block at a different place than "the next fence".
- `_extract_code` in src/agents/judge.py:431-437 is the same code as the
  fixer's. It is modelled once, by `Fixer.ExtractCode`.
- Failures.GenerateFixSuggestion: the ensures states only the length bound;
  the content is stated by Failures.GenerateFixSuggestionSpec.
- Auditor.FallbackIssues: the ensures states only the length; the order is
  stated by Auditor.FallbackIssuesInOrder.

=== FILE: auditor.dfy ===
/** The auditor agent's pure helpers (src/agents/auditor.py): reading the JSON
    object out of a model reply and filling in missing keys, the pylint-only
    fallback analysis, the error analysis, and the audit report. The model
    call, `json.loads`, pylint and the syntax check are outside the model:
    their results are inputs. */
module Auditor {
  import opened Wrappers
  import opened Text
  import opened Instructions

  // ---------------------------------------------------------------------------
  // _parse_llm_response

  /** A value `json.loads` can return. Numbers are kept exact. */
  datatype Json =
    | JNull
    | JBool(b: bool)
    | JNumber(n: real)
    | JString(s: string)
    | JArray(items: seq<Json>)
    | JObject(fields: map<string, Json>)

  /** Python's `len` on a decoded value; `None` where `len` raises `TypeError`. */
  function JsonLen(j: Json): (r: Option<nat>)
    ensures r.Some? <==> j.JArray? || j.JString? || j.JObject?
  {
    match j
    case JArray(items) => Some(|items|)
    case JString(s) => Some(|s|)
    case JObject(fields) => Some(|fields|)
    case _ => None
  }

  /** The text handed to `json.loads`: from the first `{` to the last `}`,
      both included, or `None` when there is no `{` or no `}` after it. */
  function JsonSlice(output: string): (r: Option<string>)
    ensures r.Some? <==> Contains(output, "{") && LastIndexOf(output, "}") > IndexOf(output, "{")
  {
    var start := IndexOf(output, "{");
    var end := LastIndexOf(output, "}") + 1;
    if start != -1 && end > start then Some(output[start..end]) else None
  }

  /** The slice is the widest brace-delimited part of the reply: it opens with
      `{`, closes with `}`, no `{` comes before it and no `}` after it. */
  lemma JsonSliceIsWidest(output: string)
    requires JsonSlice(output).Some?
    ensures var t := JsonSlice(output).value;
      && |t| >= 2 && t[0] == '{' && t[|t| - 1] == '}'
      && exists pre, post :: output == pre + t + post && '{' !in pre && '}' !in post
  {
    var start := IndexOf(output, "{");
    var end := LastIndexOf(output, "}") + 1;
    OccursChar(output, '{', start);
    OccursChar(output, '}', end - 1);
    var t := output[start..end];
    assert JsonSlice(output).value == t;
    assert t[0] == output[start] && t[|t| - 1] == output[end - 1];
    var pre, post := output[..start], output[end..];
    assert output == pre + t + post;
    CharAbsentBefore(output, '{', start);
    CharAbsentAfter(output, '}', end);
  }

  /** Why `_parse_llm_response` raised: no braces, `json.loads` refused the
      slice, the decoded value is not an object (so `setdefault` raises), or
      the `issues` value has no length. */
  datatype ParseError = NoJsonObject | InvalidJson(message: string) | NotAnObject | IssuesWithoutLength

  const DefaultSummary: string := "Analyse complète"

  /** The keys `_parse_llm_response` guarantees. */
  const FilePathKey: string := "file_path"
  const ScoreKey: string := "pylint_score"
  const IssuesKey: string := "issues"
  const PriorityKey: string := "refactoring_priority"
  const EstimateKey: string := "estimated_fixes"
  const SummaryKey: string := "summary"
  const RequiredKeys: set<string> :=
    {FilePathKey, ScoreKey, IssuesKey, PriorityKey, EstimateKey, SummaryKey}

  /** `result.setdefault(key, value)`. */
  function SetDefault(m: map<string, Json>, key: string, value: Json): (r: map<string, Json>)
    ensures r.Keys == m.Keys + {key}
    ensures forall k :: k in m ==> r[k] == m[k]
    ensures key !in m ==> r[key] == value
  {
    if key in m then m else m[key := value]
  }

  /** The six `setdefault` calls, in order. The default for `estimated_fixes`
      is the length of `issues` as it stands after its own default; Python
      evaluates it before the call, so it raises even when the key exists. */
  function WithDefaults(m: map<string, Json>, filePath: string, pylintScore: Json): (r: Result<map<string, Json>, ParseError>)
    ensures r.Failure? <==> IssuesKey in m && JsonLen(m[IssuesKey]).None?
    ensures r.Success? ==> forall k :: k in m ==> k in r.value && r.value[k] == m[k]
  {
    var m4 := Defaulted(m, filePath, pylintScore);
    match JsonLen(m4[IssuesKey])
    case None => Failure(IssuesWithoutLength)
    case Some(n) =>
      var m5 := SetDefault(m4, EstimateKey, JNumber(n as real));
      Success(SetDefault(m5, SummaryKey, JString(DefaultSummary)))
  }

  /** The result holds exactly the given keys and the six required ones. */
  lemma WithDefaultsKeys(m: map<string, Json>, filePath: string, pylintScore: Json)
    requires WithDefaults(m, filePath, pylintScore).Success?
    ensures WithDefaults(m, filePath, pylintScore).value.Keys == m.Keys + RequiredKeys
  {
    var m1 := SetDefault(m, FilePathKey, JString(filePath));
    var m2 := SetDefault(m1, ScoreKey, pylintScore);
    var m3 := SetDefault(m2, IssuesKey, JArray([]));
    var m4 := SetDefault(m3, PriorityKey, JArray([]));
    assert m4 == Defaulted(m, filePath, pylintScore);
    var m5 := SetDefault(m4, EstimateKey, JNumber(JsonLen(m4[IssuesKey]).value as real));
    var m6 := SetDefault(m5, SummaryKey, JString(DefaultSummary));
    assert WithDefaults(m, filePath, pylintScore).value == m6;
    SixSingletons(m.Keys, FilePathKey, ScoreKey, IssuesKey, PriorityKey, EstimateKey, SummaryKey);
  }

  /** Adding six elements one at a time adds the set of the six. */
  lemma SixSingletons<T>(s: set<T>, a: T, b: T, c: T, d: T, e: T, f: T)
    ensures s + {a} + {b} + {c} + {d} + {e} + {f} == s + {a, b, c, d, e, f}
  {
  }

  /** Each missing key among the first four gets its default. */
  lemma WithDefaultsFillsMissing(m: map<string, Json>, filePath: string, pylintScore: Json)
    requires WithDefaults(m, filePath, pylintScore).Success?
    ensures var r := WithDefaults(m, filePath, pylintScore).value;
      && RequiredKeys <= r.Keys
      && (FilePathKey !in m ==> r[FilePathKey] == JString(filePath))
      && (ScoreKey !in m ==> r[ScoreKey] == pylintScore)
      && (IssuesKey !in m ==> r[IssuesKey] == JArray([]))
      && (PriorityKey !in m ==> r[PriorityKey] == JArray([]))
  {
    KeysDistinct();
    WithDefaultsKeys(m, filePath, pylintScore);
    var m4 := Defaulted(m, filePath, pylintScore);
    var m5 := SetDefault(m4, EstimateKey, JNumber(JsonLen(m4[IssuesKey]).value as real));
    assert WithDefaults(m, filePath, pylintScore).value == SetDefault(m5, SummaryKey, JString(DefaultSummary));
  }

  /** A missing `estimated_fixes` becomes the number of issues in the result,
      and a missing `summary` the default summary. */
  lemma WithDefaultsCountsIssues(m: map<string, Json>, filePath: string, pylintScore: Json)
    requires WithDefaults(m, filePath, pylintScore).Success?
    ensures var r := WithDefaults(m, filePath, pylintScore).value;
      && IssuesKey in r && JsonLen(r[IssuesKey]).Some?
      && (EstimateKey !in m ==> EstimateKey in r && r[EstimateKey] == JNumber(JsonLen(r[IssuesKey]).value as real))
      && (SummaryKey !in m ==> SummaryKey in r && r[SummaryKey] == JString(DefaultSummary))
  {
    KeysDistinct();
    var m4 := Defaulted(m, filePath, pylintScore);
    var m5 := SetDefault(m4, EstimateKey, JNumber(JsonLen(m4[IssuesKey]).value as real));
    var m6 := SetDefault(m5, SummaryKey, JString(DefaultSummary));
    assert WithDefaults(m, filePath, pylintScore).value == m6;
    assert m6[IssuesKey] == m4[IssuesKey];
  }

  /** The map after the first four `setdefault` calls. */
  function Defaulted(m: map<string, Json>, filePath: string, pylintScore: Json): (r: map<string, Json>)
    ensures IssuesKey in r
  {
    var m1 := SetDefault(m, FilePathKey, JString(filePath));
    var m2 := SetDefault(m1, ScoreKey, pylintScore);
    var m3 := SetDefault(m2, IssuesKey, JArray([]));
    SetDefault(m3, PriorityKey, JArray([]))
  }

  /** The six required keys are pairwise different (their lengths are). */
  lemma KeysDistinct()
    ensures |FilePathKey| == 9 && |ScoreKey| == 12 && |IssuesKey| == 6
    ensures |PriorityKey| == 20 && |EstimateKey| == 15 && |SummaryKey| == 7
  {
  }

  /** Filling in defaults twice changes nothing the second time. */
  lemma WithDefaultsIdempotent(m: map<string, Json>, filePath: string, pylintScore: Json)
    requires WithDefaults(m, filePath, pylintScore).Success?
    ensures var r := WithDefaults(m, filePath, pylintScore).value;
      WithDefaults(r, filePath, pylintScore) == Success(r)
  {
    var r := WithDefaults(m, filePath, pylintScore).value;
    assert FilePathKey in r && ScoreKey in r && IssuesKey in r;
    assert PriorityKey in r && EstimateKey in r && SummaryKey in r;
    assert SetDefault(r, SummaryKey, JString(DefaultSummary)) == r;
  }

  /** `AuditorAgent._parse_llm_response`; `loads` stands for `json.loads`. */
  function ParseLlmResponse(output: string, filePath: string, pylintScore: Json,
                            loads: string -> Result<Json, string>): (r: Result<map<string, Json>, ParseError>)
    ensures r == Failure(NoJsonObject) <==> JsonSlice(output).None?
    ensures r.Success? ==>
      && JsonSlice(output).Some? && loads(JsonSlice(output).value).Success?
      && loads(JsonSlice(output).value).value.JObject?
      && r == WithDefaults(loads(JsonSlice(output).value).value.fields, filePath, pylintScore)
  {
    match JsonSlice(output)
    case None => Failure(NoJsonObject)
    case Some(text) =>
      match loads(text)
      case Failure(e) => Failure(InvalidJson(e))
      case Success(JObject(m)) => WithDefaults(m, filePath, pylintScore)
      case Success(_) => Failure(NotAnObject)
  }

  // ---------------------------------------------------------------------------
  // The analysis record

  /** The dictionary an analysis produces. `pylintScore` is exact. */
  datatype Analysis = Analysis(filePath: string, pylintScore: real, issues: seq<FixInstruction>,
                               priority: seq<string>, estimatedFixes: nat, summary: string)

  /** `CodeAnalyzer.check_syntax`'s result. */
  datatype SyntaxCheck = SyntaxCheck(valid: bool, line: Option<int>, error: string)

  /** One pylint message; a key the message lacks is `None`. */
  datatype PylintMessage = PylintMessage(kind: Option<string>, line: Option<int>,
                                         message: Option<string>, symbol: Option<string>)

  /** The keys of `run_pylint`'s result the fallback reads. */
  datatype PylintResults = PylintResults(score: real, messages: Option<seq<PylintMessage>>)

  /** Pylint messages that become issues, at most. */
  const MaxFallbackMessages: nat := 20

  const SyntaxErrorLabel: string := "Erreur de syntaxe: "
  const SyntaxSuggestion: string := "Corriger la syntaxe Python"
  const UnknownIssue: string := "Unknown issue"
  const PylintSuggestionLabel: string := "Voir Pylint: "
  const NoSymbol: string := "N/A"
  const FallbackPriority: string := "Corriger les erreurs Pylint identifiées"
  const FallbackSummaryLabel: string := "⚠️ Analyse de secours (Pylint uniquement). Erreur: "

  const ErrorKind: string := "error"
  const WarningKind: string := "warning"

  /** The severity a pylint message type maps to. */
  function MessageSeverity(kind: Option<string>): (s: Severity)
    ensures s == High <==> kind == Some(ErrorKind)
    ensures s == Medium <==> kind == Some(WarningKind)
    ensures s == Low <==> kind != Some(ErrorKind) && kind != Some(WarningKind)
  {
    if kind == Some(ErrorKind) then High else if kind == Some(WarningKind) then Medium else Low
  }

  /** The issue a pylint message becomes. */
  function MessageIssue(m: PylintMessage): (r: FixInstruction)
    ensures r.severity == High <==> m.kind == Some(ErrorKind)
    ensures r.category == Quality && r.line.Some? && (m.line.None? ==> r.line.value == 0)
    ensures StartsWith(r.suggestion, PylintSuggestionLabel)
  {
    Plain(MessageSeverity(m.kind), Quality, Some(m.line.GetOr(0)), m.message.GetOr(UnknownIssue),
          PylintSuggestionLabel + m.symbol.GetOr(NoSymbol))
  }

  /** The issue for an invalid syntax check; `line or 0` turns a missing line
      into 0. */
  function SyntaxIssue(check: SyntaxCheck): (r: FixInstruction)
    ensures r.severity == High && r.category == Bug && r.line == Some(check.line.GetOr(0))
    ensures r.description == SyntaxErrorLabel + check.error
  {
    Plain(High, Bug, Some(check.line.GetOr(0)), SyntaxErrorLabel + check.error, SyntaxSuggestion)
  }

  /** The fallback's issues: the syntax error first when the check failed,
      then the first `MaxFallbackMessages` pylint messages. */
  function FallbackIssues(syntax: SyntaxCheck, ms: seq<PylintMessage>): (r: seq<FixInstruction>)
    ensures |r| == (if syntax.valid then 0 else 1) + (if |ms| < MaxFallbackMessages then |ms| else MaxFallbackMessages)
  {
    MapTake(ms, MaxFallbackMessages, MessageIssue);
    var tail := MapSeq(Take(ms, MaxFallbackMessages), MessageIssue);
    if syntax.valid then tail else [SyntaxIssue(syntax)] + tail
  }

  /** The fallback keeps the order of the pylint messages, after the syntax
      error. */
  lemma FallbackIssuesInOrder(syntax: SyntaxCheck, ms: seq<PylintMessage>)
    ensures var r := FallbackIssues(syntax, ms);
      && (!syntax.valid ==> r[0] == SyntaxIssue(syntax))
      && forall i :: 0 <= i < |ms| && i < MaxFallbackMessages ==>
           r[(if syntax.valid then 0 else 1) + i] == MessageIssue(ms[i])
  {
    MapTake(ms, MaxFallbackMessages, MessageIssue);
  }

  /** `AuditorAgent._create_fallback_analysis`. */
  function CreateFallbackAnalysis(filePath: string, pylint: PylintResults, syntax: SyntaxCheck,
                                  error: string): (r: Analysis)
    ensures var ms := pylint.messages.GetOr([]);
      var n := if |ms| < MaxFallbackMessages then |ms| else MaxFallbackMessages;
      var off := if syntax.valid then 0 else 1;
      && |r.issues| == off + n
      && (!syntax.valid ==> r.issues[0] == SyntaxIssue(syntax))
      && (forall i :: 0 <= i < n ==> r.issues[off + i] == MessageIssue(ms[i]))
    ensures r.estimatedFixes == |r.issues| <= MaxFallbackMessages + 1
    ensures r.filePath == filePath && r.pylintScore == pylint.score
    ensures r.summary == FallbackSummaryLabel + error
  {
    var issues := FallbackIssues(syntax, pylint.messages.GetOr([]));
    FallbackIssuesInOrder(syntax, pylint.messages.GetOr([]));
    Analysis(filePath, pylint.score, issues, [FallbackPriority], |issues|, FallbackSummaryLabel + error)
  }

  /** The fallback's high-severity issues are exactly the syntax error and
      the retained pylint messages of type `error`. */
  lemma FallbackHighIffError(filePath: string, pylint: PylintResults, syntax: SyntaxCheck, error: string, i: nat)
    requires i < |CreateFallbackAnalysis(filePath, pylint, syntax, error).issues|
    ensures var r := CreateFallbackAnalysis(filePath, pylint, syntax, error);
      var off := if syntax.valid then 0 else 1;
      r.issues[i].severity == High <==>
        (i < off || pylint.messages.GetOr([])[i - off].kind == Some(ErrorKind))
  {
    var off := if syntax.valid then 0 else 1;
    if i >= off {
      assert CreateFallbackAnalysis(filePath, pylint, syntax, error).issues[i]
        == MessageIssue(pylint.messages.GetOr([])[i - off]);
    }
  }

  const ErrorSuggestion: string := "Vérifier que le fichier existe et est lisible"
  const ErrorSummaryLabel: string := "❌ Erreur: "

  /** `AuditorAgent._create_error_analysis`: one high-severity bug at line 0
      carrying the error, a zero score, and 0 estimated fixes even though
      there is one issue. */
  function CreateErrorAnalysis(filePath: string, error: string): (r: Analysis)
    ensures |r.issues| == 1 && r.estimatedFixes == 0 && r.pylintScore == 0.0
    ensures r.issues[0].severity == High && r.issues[0].category == Bug && r.issues[0].line == Some(0)
    ensures r.issues[0].description == error
    ensures r.priority == [] && r.filePath == filePath && EndsWith(r.summary, error)
  {
    var summary := ErrorSummaryLabel + error;
    assert summary[|summary| - |error|..] == error;
    Analysis(filePath, 0.0, [Plain(High, Bug, Some(0), error, ErrorSuggestion)], [], 0, summary)
  }

  // ---------------------------------------------------------------------------
  // generate_report

  /** The issues listed per file, at most. */
  const ListedIssues: nat := 5

  /** One line of the report, by kind; the text of each line is not modelled
      beyond the values it shows. */
  datatype ReportLine =
    | HeavyRule  // "=" * 80
    | LightRule  // "-" * 80
    | Title
    | Blank
    | StatsHeader
    | FilesAnalyzed(count: nat)
    | TotalIssues(count: nat)
    | AverageScore(score: real)
    | FileHeader(path: string)
    | FileScore(score: real, issues: nat)
    | IssuesHeader
    | IssueLine(severity: Severity, line: int, description: string)
    | MoreIssues(count: nat)

  /** The total number of issues over the analyses. */
  function IssueTotal(analyses: seq<Analysis>): nat {
    if |analyses| == 0 then 0 else |analyses[0].issues| + IssueTotal(analyses[1..])
  }

  /** The total of the pylint scores. */
  function ScoreTotal(analyses: seq<Analysis>): real {
    if |analyses| == 0 then 0.0 else analyses[0].pylintScore + ScoreTotal(analyses[1..])
  }

  /** Every one of the issues has a line. */
  predicate LinesPresent(issues: seq<FixInstruction>) {
    forall i :: 0 <= i < |issues| ==> issues[i].line.Some?
  }

  /** The issues a file's block lists: its first five. */
  function Shown(issues: seq<FixInstruction>): seq<FixInstruction> {
    Take(issues, ListedIssues)
  }

  /** The report reads `issue['line']` of the listed issues only, so only
      those need a line. */
  predicate ListedHaveLines(analyses: seq<Analysis>) {
    forall a :: 0 <= a < |analyses| ==> LinesPresent(Shown(analyses[a].issues))
  }

  /** A file's listed issues have lines exactly when none of its first five
      issues lacks one. */
  lemma ShownLinesPresent(issues: seq<FixInstruction>)
    ensures LinesPresent(Shown(issues)) <==>
      forall i :: 0 <= i < |issues| && i < ListedIssues ==> issues[i].line.Some?
  {
    assert forall i :: 0 <= i < |Shown(issues)| ==> Shown(issues)[i] == issues[i];
  }

  /** The report's condition, issue by issue: no issue among the first five
      of a file lacks a line. */
  lemma ListedHaveLinesIff(analyses: seq<Analysis>)
    ensures ListedHaveLines(analyses) <==>
      !exists a, i :: 0 <= a < |analyses| && 0 <= i < |analyses[a].issues|
                      && i < ListedIssues && analyses[a].issues[i].line.None?
  {
    forall a | 0 <= a < |analyses| {
      ShownLinesPresent(analyses[a].issues);
    }
  }

  /** The `KeyError` raised by a listed issue without a line. */
  const MissingLineError: string := "'line'"

  /** The lines for the first issues of a file. */
  function IssueLines(issues: seq<FixInstruction>): (r: seq<ReportLine>)
    requires LinesPresent(issues)
    ensures |r| == |issues|
    ensures forall i :: 0 <= i < |issues| ==>
      r[i] == IssueLine(issues[i].severity, issues[i].line.value, issues[i].description)
  {
    if |issues| == 0 then []
    else [IssueLine(issues[0].severity, issues[0].line.value, issues[0].description)] + IssueLines(issues[1..])
  }

  /** The issue part of a file's block: nothing without issues, otherwise a
      header, the first five issues and, beyond five, the number of the others. */
  function ListedBlock(issues: seq<FixInstruction>): seq<ReportLine>
    requires LinesPresent(Shown(issues))
  {
    if issues == [] then [] else
      [IssuesHeader] + IssueLines(Shown(issues))
      + (if |issues| > ListedIssues then [MoreIssues(|issues| - ListedIssues)] else [])
  }

  /** The block of lines for one analysis. */
  function FileBlock(a: Analysis): seq<ReportLine>
    requires LinesPresent(Shown(a.issues))
  {
    [LightRule, FileHeader(a.filePath), FileScore(a.pylintScore, |a.issues|), Blank] + ListedBlock(a.issues) + [Blank]
  }

  /** The blocks of all analyses, one after the other. */
  function FileBlocks(analyses: seq<Analysis>): seq<ReportLine>
    requires ListedHaveLines(analyses)
  {
    if |analyses| == 0 then []
    else
      assert forall a :: 0 <= a < |analyses[1..]| ==> analyses[1..][a] == analyses[a + 1];
      FileBlock(analyses[0]) + FileBlocks(analyses[1..])
  }

  /** `AuditorAgent.generate_report`, as the sequence of its lines, or the
      `KeyError` of a listed issue without a line. */
  function GenerateReport(analyses: seq<Analysis>): (r: Result<seq<ReportLine>, string>)
  {
    if ListedHaveLines(analyses) then Success(ReportHeader(analyses) + FileBlocks(analyses) + [HeavyRule])
    else Failure(MissingLineError)
  }

  /** The title and the general statistics: the number of files, the total
      number of issues and the average score (0 without analyses). */
  function ReportHeader(analyses: seq<Analysis>): (r: seq<ReportLine>)
    ensures |r| == 9 && Uncounted(r)
    ensures r[5] == FilesAnalyzed(|analyses|) && r[6] == TotalIssues(IssueTotal(analyses))
  {
    var average := if |analyses| == 0 then 0.0 else ScoreTotal(analyses) / (|analyses| as real);
    [HeavyRule, Title, HeavyRule, Blank, StatsHeader, FilesAnalyzed(|analyses|), TotalIssues(IssueTotal(analyses)),
     AverageScore(average), Blank]
  }

  /** The number of issue lines in a sequence of report lines. */
  function CountIssueLines(lines: seq<ReportLine>): nat {
    if |lines| == 0 then 0 else (if lines[0].IssueLine? then 1 else 0) + CountIssueLines(lines[1..])
  }

  /** The "... and N more" lines in a sequence of report lines. */
  function MoreLines(lines: seq<ReportLine>): seq<nat> {
    if |lines| == 0 then []
    else (if lines[0].MoreIssues? then [lines[0].count] else []) + MoreLines(lines[1..])
  }

  /** Counting distributes over concatenation. */
  lemma {:induction false} CountsAppend(a: seq<ReportLine>, b: seq<ReportLine>)
    decreases |a|
    ensures CountIssueLines(a + b) == CountIssueLines(a) + CountIssueLines(b)
    ensures MoreLines(a + b) == MoreLines(a) + MoreLines(b)
  {
    if |a| > 0 {
      assert (a + b)[1..] == a[1..] + b;
      CountsAppend(a[1..], b);
    } else {
      assert a + b == b;
    }
  }

  /** Issue lines hold no other kind of line. */
  lemma {:induction false} IssueLinesCount(issues: seq<FixInstruction>)
    requires LinesPresent(issues)
    decreases |issues|
    ensures CountIssueLines(IssueLines(issues)) == |issues| && MoreLines(IssueLines(issues)) == []
  {
    if |issues| > 0 {
      var r := IssueLines(issues);
      assert r == [r[0]] + IssueLines(issues[1..]);
      CountsAppend([r[0]], IssueLines(issues[1..]));
      IssueLinesCount(issues[1..]);
    }
  }

  /** The number of issues a file lists. */
  function Listed(a: Analysis): nat {
    if |a.issues| < ListedIssues then |a.issues| else ListedIssues
  }

  /** The "more" count a file shows, if any. */
  function Hidden(a: Analysis): seq<nat> {
    if |a.issues| > ListedIssues then [|a.issues| - ListedIssues] else []
  }

  /** Lines that are neither issue lines nor "more" lines. */
  predicate Uncounted(lines: seq<ReportLine>) {
    forall i :: 0 <= i < |lines| ==> !lines[i].IssueLine? && !lines[i].MoreIssues?
  }

  /** Such lines count for nothing. */
  lemma {:induction false} UncountedCounts(lines: seq<ReportLine>)
    requires Uncounted(lines)
    decreases |lines|
    ensures CountIssueLines(lines) == 0 && MoreLines(lines) == []
  {
    if |lines| > 0 {
      UncountedCounts(lines[1..]);
    }
  }

  /** The issue part lists the first five issues at most, and adds one line
      with the number of the others exactly when there are more than five. */
  lemma ListedBlockCounts(issues: seq<FixInstruction>)
    requires LinesPresent(Shown(issues))
    ensures CountIssueLines(ListedBlock(issues)) == if |issues| < ListedIssues then |issues| else ListedIssues
    ensures MoreLines(ListedBlock(issues)) == if |issues| > ListedIssues then [|issues| - ListedIssues] else []
  {
    if issues != [] {
      var shown := Shown(issues);
      var lines := IssueLines(shown);
      IssueLinesCount(shown);
      UncountedCounts([IssuesHeader]);
      var more: seq<ReportLine> := if |issues| > ListedIssues then [MoreIssues(|issues| - ListedIssues)] else [];
      assert CountIssueLines(more) == 0;
      CountsAppend([IssuesHeader], lines);
      CountsAppend([IssuesHeader] + lines, more);
    }
  }

  /** A file lists its first five issues at most, and adds one line with the
      number of the others exactly when it has more than five. */
  lemma FileBlockCounts(a: Analysis)
    requires LinesPresent(Shown(a.issues))
    ensures CountIssueLines(FileBlock(a)) == Listed(a)
    ensures MoreLines(FileBlock(a)) == Hidden(a)
  {
    var head: seq<ReportLine> := [LightRule, FileHeader(a.filePath), FileScore(a.pylintScore, |a.issues|), Blank];
    var tail: seq<ReportLine> := [Blank];
    UncountedCounts(head);
    UncountedCounts(tail);
    ListedBlockCounts(a.issues);
    CountsAppend(head, ListedBlock(a.issues));
    CountsAppend(head + ListedBlock(a.issues), tail);
  }

  /** The total of listed issues over the analyses. */
  function ListedTotal(analyses: seq<Analysis>): nat {
    if |analyses| == 0 then 0 else Listed(analyses[0]) + ListedTotal(analyses[1..])
  }

  /** The "more" counts over the analyses, in order. */
  function HiddenCounts(analyses: seq<Analysis>): seq<nat> {
    if |analyses| == 0 then [] else Hidden(analyses[0]) + HiddenCounts(analyses[1..])
  }

  /** Over the whole report: the issue lines are the first five (at most) of
      each file, and the "more" lines give, in file order, the number of
      unlisted issues of each file with more than five. */
  lemma {:induction false} FileBlocksCounts(analyses: seq<Analysis>)
    requires ListedHaveLines(analyses)
    decreases |analyses|
    ensures CountIssueLines(FileBlocks(analyses)) == ListedTotal(analyses)
    ensures MoreLines(FileBlocks(analyses)) == HiddenCounts(analyses)
  {
    if |analyses| > 0 {
      assert forall a :: 0 <= a < |analyses[1..]| ==> analyses[1..][a] == analyses[a + 1];
      FileBlockCounts(analyses[0]);
      FileBlocksCounts(analyses[1..]);
      CountsAppend(FileBlock(analyses[0]), FileBlocks(analyses[1..]));
    }
  }

  /** The report raises exactly when one of a file's first five issues has
      no line; issues beyond the fifth are never read. */
  lemma ReportRaisesIff(analyses: seq<Analysis>)
    ensures GenerateReport(analyses).Failure? <==>
      exists a, i :: 0 <= a < |analyses| && 0 <= i < |analyses[a].issues|
                     && i < ListedIssues && analyses[a].issues[i].line.None?
    ensures GenerateReport(analyses).Failure? ==> GenerateReport(analyses).error == MissingLineError
  {
    ListedHaveLinesIff(analyses);
  }

  /** A report that does not raise lists, over all files, the first five
      issues of each (at most all of them), and one "more" line per file with
      more than five, giving the number of its unlisted issues, in file order. */
  lemma ReportCounts(analyses: seq<Analysis>)
    ensures var r := GenerateReport(analyses);
      r.Success? ==>
        && CountIssueLines(r.value) == ListedTotal(analyses)
        && MoreLines(r.value) == HiddenCounts(analyses)
        && ListedTotal(analyses) <= IssueTotal(analyses)
  {
    if ListedHaveLines(analyses) {
      var head := ReportHeader(analyses);
      var blocks := FileBlocks(analyses);
      ListedBelowTotal(analyses);
      UncountedCounts(head);
      FileBlocksCounts(analyses);
      CountsAppend(head, blocks);
      CountsAppend(head + blocks, [HeavyRule]);
    }
  }

  /** Listing at most five per file lists at most all the issues. */
  lemma {:induction false} ListedBelowTotal(analyses: seq<Analysis>)
    decreases |analyses|
    ensures ListedTotal(analyses) <= IssueTotal(analyses)
  {
    if |analyses| > 0 {
      ListedBelowTotal(analyses[1..]);
    }
  }

  /** The stated total adds up over any split of the analyses. */
  lemma {:induction false} IssueTotalAppend(a: seq<Analysis>, b: seq<Analysis>)
    decreases |a|
    ensures IssueTotal(a + b) == IssueTotal(a) + IssueTotal(b)
  {
    if |a| > 0 {
      assert (a + b)[1..] == a[1..] + b;
      IssueTotalAppend(a[1..], b);
    } else {
      assert a + b == b;
    }
  }
}

=== FILE: code_analyzer.dfy ===
/** The static-analysis helpers the auditor relies on
    (src/tools/code_analyzer.py): counting the kinds of lines of a file, and
    picking the score out of pylint's text report. Reading the file and running
    pylint are outside the model; `float()` is an abstract parser. */
module CodeAnalyzer {
  import opened Wrappers
  import opened Text

  /** The dictionary `count_lines` returns. */
  datatype LineStats = LineStats(total: nat, code: int, comments: nat, blank: nat)

  /** A line that is empty once stripped. */
  predicate IsBlank(line: string) {
    Strip(line) == ""
  }

  /** A line that starts with `#` once stripped. */
  predicate IsComment(line: string) {
    StartsWith(Strip(line), "#")
  }

  /** Blank lines among the first `n` lines. */
  function BlankCount(lines: seq<string>, n: nat): (c: nat)
    requires n <= |lines|
    ensures c <= n
  {
    if n == 0 then 0 else BlankCount(lines, n - 1) + (if IsBlank(lines[n - 1]) then 1 else 0)
  }

  /** Comment lines among the first `n` lines. */
  function CommentCount(lines: seq<string>, n: nat): (c: nat)
    requires n <= |lines|
    ensures c <= n
  {
    if n == 0 then 0 else CommentCount(lines, n - 1) + (if IsComment(lines[n - 1]) then 1 else 0)
  }

  /** No line is both blank and a comment. */
  lemma BlankIsNotComment(line: string)
    ensures !(IsBlank(line) && IsComment(line))
  {
  }

  /** Blank and comment lines are disjoint, so together they are at most all lines. */
  lemma {:induction false} BlankAndCommentsFit(lines: seq<string>, n: nat)
    requires n <= |lines|
    ensures BlankCount(lines, n) + CommentCount(lines, n) <= n
  {
    if n > 0 {
      BlankAndCommentsFit(lines, n - 1);
      BlankIsNotComment(lines[n - 1]);
    }
  }

  /** `CodeAnalyzer.count_lines`: `read` is the outcome of reading the file's
      lines; a failed read gives all zeros. */
  method CountLines(read: Result<seq<string>, string>) returns (stats: LineStats)
    ensures read.Failure? ==> stats == LineStats(0, 0, 0, 0)
    ensures read.Success? ==>
      && stats.total == |read.value|
      && stats.blank == BlankCount(read.value, |read.value|)
      && stats.comments == CommentCount(read.value, |read.value|)
    ensures stats.code >= 0 && stats.total == stats.code + stats.comments + stats.blank
  {
    if read.Failure? {
      return LineStats(0, 0, 0, 0);
    }
    var lines := read.value;
    var blank, comments := 0, 0;
    var i := 0;
    while i < |lines|
      invariant i <= |lines|
      invariant blank == BlankCount(lines, i) && comments == CommentCount(lines, i)
    {
      if IsBlank(lines[i]) {
        blank := blank + 1;
      }
      if IsComment(lines[i]) {
        comments := comments + 1;
      }
      i := i + 1;
    }
    BlankAndCommentsFit(lines, |lines|);
    stats := LineStats(|lines|, |lines| - blank - comments, comments, blank);
  }

  // ---------------------------------------------------------------------------
  // _extract_pylint_score

  const RatedAt: string := "rated at"

  /** What one line yields: a score when its lower-cased form mentions
      "rated at", the line itself holds "rated at" (the split is case
      sensitive, so a miss raises `IndexError`), and the stripped text between
      it and the next `/` parses as a float. */
  function LineScore(line: string, parseFloat: string -> Option<real>): (r: Option<real>)
    ensures r.Some? ==> Contains(line, RatedAt) && Contains(Lower(line), RatedAt)
    ensures r.Some? ==> parseFloat(Strip(Split(Split(line, RatedAt)[1], "/")[0])) == r
  {
    if !Contains(Lower(line), RatedAt) then None
    else
      var parts := Split(line, RatedAt);
      if |parts| < 2 then None
      else parseFloat(Strip(Split(parts[1], "/")[0]))
  }

  /** A line containing "rated at" only in another case never yields a score. */
  lemma CaseMismatchYieldsNothing(line: string, parseFloat: string -> Option<real>)
    requires Contains(Lower(line), RatedAt) && !Contains(line, RatedAt)
    ensures LineScore(line, parseFloat).None?
  {
  }

  /** `CodeAnalyzer._extract_pylint_score`: the score of the first line that
      yields one, or 0.0 when the output is empty or no line does. */
  method ExtractPylintScore(output: string, parseFloat: string -> Option<real>) returns (score: real)
    ensures output == "" ==> score == 0.0
    ensures var lines := Split(output, "\n");
      (forall i :: 0 <= i < |lines| ==> LineScore(lines[i], parseFloat).None?) ==> score == 0.0
    ensures var lines := Split(output, "\n");
      forall i :: 0 <= i < |lines| ==>
        (LineScore(lines[i], parseFloat).Some? && (forall j :: 0 <= j < i ==> LineScore(lines[j], parseFloat).None?)
         ==> score == LineScore(lines[i], parseFloat).value)
  {
    if output == "" {
      return 0.0;
    }
    var lines := Split(output, "\n");
    var lineScore := line => LineScore(line, parseFloat);
    assert forall i :: 0 <= i < |lines| ==> lineScore(lines[i]) == LineScore(lines[i], parseFloat);
    score := FirstScore(lines, lineScore);
  }

  /** The `for` loop: the value the first line yields, or 0.0. */
  method FirstScore(lines: seq<string>, lineScore: string -> Option<real>) returns (score: real)
    ensures (forall i :: 0 <= i < |lines| ==> lineScore(lines[i]).None?) ==> score == 0.0
    ensures forall i :: 0 <= i < |lines| ==>
      (lineScore(lines[i]).Some? && (forall j :: 0 <= j < i ==> lineScore(lines[j]).None?)
       ==> score == lineScore(lines[i]).value)
  {
    var i := 0;
    while i < |lines|
      invariant i <= |lines|
      invariant forall j :: 0 <= j < i ==> lineScore(lines[j]).None?
    {
      var s := lineScore(lines[i]);
      if s.Some? {
        return s.value;
      }
      i := i + 1;
    }
    return 0.0;
  }
}

=== FILE: failures.dfy ===
/** Turning failing pytest output into fix instructions for the fixer
    (src/agents/judge.py: `_analyze_failures_for_fixer`, `_parse_failure_details`
    and `_generate_fix_suggestion`). The regular expressions that cut the
    output into per-test sections, that collect the short-summary lines and
    that pick details out of a section are parameters (`Extractors`): the
    model fixes what is done with what they find, not how they find it. */
module Failures {
  import opened Wrappers
  import opened Text
  import opened Instructions
  import opened PytestOutput

  /** One "_____ test_name _____" section and the traceback under it. */
  datatype Section = Section(testName: string, content: string)

  /** One `FAILED path::test_name - ErrorType: message` line of the short summary. */
  datatype SummaryFailure = SummaryFailure(testName: string, errorType: string, message: string)

  /** What the detail regexes find in one section: the `> ` code lines, the
      text after `AssertionError:` / `E assert`, the two sides of the first
      `assert a == b`, and the function and arguments of a `where x = f(...)`. */
  datatype Captures = Captures(
    testCodeLines: seq<string>,
    assertion: Option<string>,
    comparison: Option<(string, string)>,
    call: Option<(string, string)>)

  /** The regular-expression passes over the output. */
  datatype Extractors = Extractors(
    sections: string -> seq<Section>,
    summary: string -> seq<SummaryFailure>,
    details: string -> Captures)

  /** The error names looked for in a section, in the order they are tried. */
  const ErrorCatalog: seq<string> := ["KeyError", "TypeError", "ValueError", "AttributeError", "IndexError"]

  /** The type reported when no catalog name occurs. */
  const AssertionType: string := "AssertionError"

  /** Catalog entry `j` occurs in `content`. */
  predicate Mentions(content: string, j: nat) {
    j < |ErrorCatalog| && Contains(content, ErrorCatalog[j])
  }

  /** The `error_type` of a section: the first of KeyError, TypeError,
      ValueError, AttributeError, IndexError mentioned in it, AssertionError
      when none is. */
  function DetectErrorType(content: string): (r: string)
    ensures r == AssertionType || r in ErrorCatalog
  {
    match FirstWhere((j: nat) => Mentions(content, j), 0, |ErrorCatalog|)
    case None => AssertionType
    case Some(j) => ErrorCatalog[j]
  }

  /** AssertionError is not a catalog name, and neither are the three types
      the suggestion catalog knows but detection never looks for. */
  lemma CatalogNames()
    ensures AssertionType !in ErrorCatalog
    ensures forall j :: 0 <= j < |ErrorCatalog| ==>
      ErrorCatalog[j] !in {"ZeroDivisionError", "ImportError", "NameError"}
  {
    assert ErrorCatalog[3][1] != AssertionType[1];
    assert ErrorCatalog[1][0] != "NameError"[0];
  }

  /** The detected type is AssertionError exactly when no catalog name occurs
      in the section; otherwise it is the first catalog name that occurs. In
      particular it is never ZeroDivisionError, ImportError or NameError. */
  lemma DetectErrorTypeIsFirst(content: string)
    ensures DetectErrorType(content) == AssertionType <==>
      forall j :: 0 <= j < |ErrorCatalog| ==> !Contains(content, ErrorCatalog[j])
    ensures DetectErrorType(content) != AssertionType ==>
      exists j :: 0 <= j < |ErrorCatalog| && DetectErrorType(content) == ErrorCatalog[j] &&
        Contains(content, ErrorCatalog[j]) && (forall m :: 0 <= m < j ==> !Contains(content, ErrorCatalog[m]))
    ensures DetectErrorType(content) !in {"ZeroDivisionError", "ImportError", "NameError"}
  {
    var p := (j: nat) => Mentions(content, j);
    var r := FirstWhere(p, 0, |ErrorCatalog|);
    FirstWhereIsLeftmost(p, 0, |ErrorCatalog|);
    assert forall j: nat :: p(j) == Mentions(content, j);
    CatalogNames();
    var bound := if r.Some? then r.value else |ErrorCatalog|;
    forall m | 0 <= m < bound
      ensures !Contains(content, ErrorCatalog[m])
    {
      assert !p(m);
    }
    if r.Some? {
      assert p(r.value);
    }
  }

  // The advice texts of `_generate_fix_suggestion`, one per known error type.
  const AssertionAdvicePrefix: string := "La valeur retournée ne correspond pas à l'attendu. Vérifier la logique de la fonction testée par '"
  const TypeAdvice: string := "Type incorrect détecté. Vérifier les types des paramètres et valeurs de retour."
  const ValueAdvice: string := "Valeur invalide. Vérifier la validation des entrées et les cas limites."
  const AttributeAdvice: string := "Attribut manquant. Vérifier que l'objet a bien l'attribut ou méthode appelée."
  const KeyAdvice: string := "Clé manquante dans un dictionnaire. Vérifier les clés utilisées."
  const IndexAdvice: string := "Index hors limites. Vérifier les accès aux listes/tableaux."
  const ZeroDivisionAdvice: string := "Division par zéro. Ajouter une vérification avant la division."
  const ImportAdvice: string := "Import échoué. Vérifier que le module existe et est accessible."
  const NameAdvice: string := "Variable non définie. Vérifier l'orthographe et la portée des variables."
  const GenericAdvicePrefix: string := "Corriger l'erreur "
  const GenericAdviceSuffix: string := " dans la fonction testée."
  const DetailLabel: string := "\nDétail: "

  /** The error types with a fixed advice text, and that text. */
  const AdviceCatalog: seq<(string, string)> := [
    ("TypeError", TypeAdvice), ("ValueError", ValueAdvice), ("AttributeError", AttributeAdvice),
    ("KeyError", KeyAdvice), ("IndexError", IndexAdvice), ("ZeroDivisionError", ZeroDivisionAdvice),
    ("ImportError", ImportAdvice), ("NameError", NameAdvice)]

  /** The text paired with `key` in `catalog`, searching from index `k`. */
  function Lookup(catalog: seq<(string, string)>, key: string, k: nat): (r: Option<string>)
    decreases |catalog| - k
    ensures r.Some? ==> exists j :: k <= j < |catalog| && catalog[j] == (key, r.value)
    ensures r.None? ==> forall j :: k <= j < |catalog| ==> catalog[j].0 != key
  {
    if k >= |catalog| then None
    else if catalog[k].0 == key then Some(catalog[k].1)
    else Lookup(catalog, key, k + 1)
  }

  /** The catalog of `_generate_fix_suggestion`, `None` for an unknown type.
      The AssertionError advice names the test. */
  function KnownSuggestion(testName: string, errorType: string): Option<string> {
    if errorType == AssertionType then Some(AssertionAdvicePrefix + testName + "'.")
    else Lookup(AdviceCatalog, errorType, 0)
  }

  /** The advice for an error type: the catalog text, or a generic sentence
      naming the type. */
  function SuggestionBase(testName: string, errorType: string): string {
    KnownSuggestion(testName, errorType).GetOr(GenericAdvicePrefix + errorType + GenericAdviceSuffix)
  }

  /** `_generate_fix_suggestion`: the advice for the error type, followed by
      at most 300 characters of the error message when there is one. */
  function GenerateFixSuggestion(testName: string, errorType: string, message: string): (r: string)
    ensures |r| <= |SuggestionBase(testName, errorType)| + 9 + 300
  {
    var base := SuggestionBase(testName, errorType);
    if message == "" then base else base + DetailLabel + Take(message, 300)
  }

  /** The suggestion starts with the advice for the type, is only that advice
      when the message is empty, ends with the first 300 characters of the
      message otherwise, and names the type when it is not in the catalog. */
  lemma GenerateFixSuggestionSpec(testName: string, errorType: string, message: string)
    ensures var r := GenerateFixSuggestion(testName, errorType, message);
      && StartsWith(r, SuggestionBase(testName, errorType))
      && (message == "" ==> r == SuggestionBase(testName, errorType))
      && (message != "" ==> EndsWith(r, DetailLabel + Take(message, 300)))
      && (KnownSuggestion(testName, errorType).None? ==> Contains(r, errorType))
  {
    var base := SuggestionBase(testName, errorType);
    var r := GenerateFixSuggestion(testName, errorType, message);
    assert r[..|base|] == base;
    if KnownSuggestion(testName, errorType).None? {
      ContainsMiddle(GenericAdvicePrefix, errorType, GenericAdviceSuffix);
      ContainsInFactor(r, 0, base, errorType);
    }
  }

  /** Python's `s.strip()[:n]`, used for every captured value. */
  function Clip(s: string, n: nat): (r: string)
    ensures |r| <= n
  {
    Take(Strip(s), n)
  }

  /** The value of an optional capture after `.strip()[:n]`, "" when absent. */
  function ClipOr(o: Option<string>, n: nat): (r: string)
    ensures |r| <= n
    ensures o.None? ==> r == ""
  {
    match o
    case None => ""
    case Some(s) => Clip(s, n)
  }

  // The labels of the description and suggestion lines.
  const FailedHeadline: string := "' a échoué"
  const TestCodeLabel: string := "Code du test: "
  const ExpectedLabel: string := "Attendu: "
  const ActualLabel: string := "Obtenu: "
  const DetailsLabel: string := "Erreur: "
  const CheckFunctionLabel: string := "Vérifier la fonction '"
  const ReturnsLabel: string := "La fonction retourne "
  const ShouldReturnLabel: string := " mais devrait retourner "

  /** The first line of a section's description. */
  function Headline(testName: string): string {
    "Test '" + testName + FailedHeadline
  }

  /** The lines of `description`. */
  function DescriptionParts(testName: string, testCode: string, expected: string, actual: string,
                            details: string): (parts: seq<string>)
    ensures |parts| >= 1 && parts[0] == Headline(testName)
  {
    [Headline(testName)]
    + (if testCode != "" then [TestCodeLabel + Take(testCode, 200)] else [])
    + (if expected != "" && actual != "" then [ExpectedLabel + expected, ActualLabel + actual] else [])
    + (if details != "" then [DetailsLabel + details] else [])
  }

  /** The lines of `suggestion`. */
  function SuggestionParts(call: Option<(string, string)>, expected: string, actual: string,
                           advice: string): (parts: seq<string>)
    ensures |parts| >= 1 && parts[|parts| - 1] == advice
  {
    (if call.Some? && call.value.0 != "" then [CheckFunctionLabel + call.value.0 + "'"] else [])
    + (if expected != "" && actual != "" then [ReturnsLabel + actual + ShouldReturnLabel + expected] else [])
    + [advice]
  }

  /** The `description` of a section's instruction: a headline naming the
      test, then every captured value that is non-empty. */
  function Description(testName: string, testCode: string, e: string, a: string, d: string): string {
    Join(DescriptionParts(testName, testCode, e, a, d), "\n")
  }

  /** The `suggestion` of a section's instruction: the called function and the
      returned-versus-expected values when known, then the type advice. */
  function Suggestion(call: Option<(string, string)>, e: string, a: string, advice: string): string {
    Join(SuggestionParts(call, e, a, advice), "\n")
  }

  /** `_parse_failure_details`: the instruction built from one failure section. */
  function ParseFailureDetails(testName: string, content: string, caps: Captures): (r: FixInstruction)
    ensures r.severity == High && r.category == Bug
    ensures r.testName == Some(testName) && r.errorType == Some(DetectErrorType(content))
    ensures r.testCode == Some(if caps.testCodeLines == [] then "" else Join(caps.testCodeLines, "\n"))
    ensures r.errorDetails == Some(ClipOr(caps.assertion, 500))
    ensures r.actual.Some? && r.expected.Some? && |r.actual.value| <= 200 && |r.expected.value| <= 200
    ensures caps.comparison.None? ==> r.actual == Some("") && r.expected == Some("")
    ensures caps.comparison.Some? ==>
      r.actual == Some(Clip(caps.comparison.value.0, 200)) && r.expected == Some(Clip(caps.comparison.value.1, 200))
    ensures r.call == caps.call
  {
    var testCode := if caps.testCodeLines == [] then "" else Join(caps.testCodeLines, "\n");
    var details := ClipOr(caps.assertion, 500);
    var actual := if caps.comparison.Some? then Clip(caps.comparison.value.0, 200) else "";
    var expected := if caps.comparison.Some? then Clip(caps.comparison.value.1, 200) else "";
    var errorType := DetectErrorType(content);
    FixInstruction(High, Bug, None, Some(testName), Some(errorType),
                   Description(testName, testCode, expected, actual, details),
                   Suggestion(caps.call, expected, actual, GenerateFixSuggestion(testName, errorType, details)),
                   Some(testCode), Some(expected), Some(actual), Some(details), caps.call)
  }

  /** The description of a section's instruction names the test and mentions
      every captured value that is non-empty; the suggestion ends with the
      advice for the detected error type and mentions the called function and
      the returned-versus-expected values when known. */
  lemma FailureDetailsMention(testName: string, content: string, caps: Captures)
    ensures var r := ParseFailureDetails(testName, content, caps);
      var e := r.expected.value;
      var a := r.actual.value;
      && StartsWith(r.description, Headline(testName))
      && EndsWith(r.suggestion, GenerateFixSuggestion(testName, DetectErrorType(content), r.errorDetails.value))
      && (e != "" && a != "" ==>
            && Contains(r.description, ExpectedLabel + e) && Contains(r.description, ActualLabel + a)
            && Contains(r.suggestion, ReturnsLabel + a + ShouldReturnLabel + e))
      && (r.errorDetails.value != "" ==> Contains(r.description, DetailsLabel + r.errorDetails.value))
      && (caps.call.Some? && caps.call.value.0 != "" ==>
            Contains(r.suggestion, CheckFunctionLabel + caps.call.value.0 + "'"))
  {
    var r := ParseFailureDetails(testName, content, caps);
    DescriptionMentions(testName, r.testCode.value, r.expected.value, r.actual.value, r.errorDetails.value);
    SuggestionMentions(caps.call, r.expected.value, r.actual.value,
                       GenerateFixSuggestion(testName, DetectErrorType(content), r.errorDetails.value));
  }

  /** The description mentions the expected and actual values when both are
      non-empty, and the error details when non-empty. */
  lemma DescriptionMentions(testName: string, testCode: string, e: string, a: string, d: string)
    ensures var desc := Description(testName, testCode, e, a, d);
      && StartsWith(desc, Headline(testName))
      && (e != "" && a != "" ==> Contains(desc, ExpectedLabel + e) && Contains(desc, ActualLabel + a))
      && (d != "" ==> Contains(desc, DetailsLabel + d))
  {
    var parts := DescriptionParts(testName, testCode, e, a, d);
    JoinStartsWithHead(parts, "\n");
    var c := if testCode != "" then 2 else 1;
    if e != "" && a != "" {
      assert parts[c] == ExpectedLabel + e && parts[c + 1] == ActualLabel + a;
      JoinContainsPart(parts, "\n", c);
      JoinContainsPart(parts, "\n", c + 1);
    }
    if d != "" {
      assert parts[|parts| - 1] == DetailsLabel + d;
      JoinContainsPart(parts, "\n", |parts| - 1);
    }
  }

  /** The suggestion names the called function when one was found, and the
      returned and expected values when both are non-empty. */
  lemma SuggestionMentions(call: Option<(string, string)>, e: string, a: string, advice: string)
    ensures var sugg := Suggestion(call, e, a, advice);
      && EndsWith(sugg, advice)
      && (e != "" && a != "" ==> Contains(sugg, ReturnsLabel + a + ShouldReturnLabel + e))
      && (call.Some? && call.value.0 != "" ==> Contains(sugg, CheckFunctionLabel + call.value.0 + "'"))
  {
    var parts := SuggestionParts(call, e, a, advice);
    JoinEndsWithLast(parts, "\n");
    if e != "" && a != "" {
      var m := if call.Some? && call.value.0 != "" then 1 else 0;
      assert parts[m] == ReturnsLabel + a + ShouldReturnLabel + e;
      JoinContainsPart(parts, "\n", m);
    }
    if call.Some? && call.value.0 != "" {
      assert parts[0] == CheckFunctionLabel + call.value.0 + "'";
      JoinContainsPart(parts, "\n", 0);
    }
  }

  const FailedWithLabel: string := "' a échoué avec "
  const RawLogDescription: string := "Des tests ont échoué. Voir les détails complets ci-dessous."
  const RawLogLabel: string := "Analyser les erreurs et corriger le code:\n"
  const UnknownTest: string := "unknown"
  const TestFailureType: string := "TestFailure"

  /** The instruction for a short-summary entry that no section covered. */
  function SummaryInstruction(f: SummaryFailure): (r: FixInstruction)
    ensures r.severity == High && r.category == Bug
    ensures r.testName == Some(f.testName) && r.errorType == Some(f.errorType)
    ensures r.errorDetails == Some(Clip(f.message, 500))
    ensures StartsWith(r.suggestion, SuggestionBase(f.testName, f.errorType))
  {
    GenerateFixSuggestionSpec(f.testName, f.errorType, f.message);
    FixInstruction(High, Bug, None, Some(f.testName), Some(f.errorType),
                   "Test '" + f.testName + FailedWithLabel + f.errorType,
                   GenerateFixSuggestion(f.testName, f.errorType, f.message),
                   None, None, None, Some(Clip(f.message, 500)), None)
  }

  /** The instruction used when nothing structured was found but the output
      mentions FAILED or ERROR: the raw error logs as the suggestion. */
  function RawLogInstruction(output: string): (r: FixInstruction)
    ensures Tagged(r, UnknownTest) && r.errorType == Some(TestFailureType)
  {
    FixInstruction(High, Bug, None, Some(UnknownTest), Some(TestFailureType),
                   RawLogDescription, RawLogLabel + ExtractErrorLogs(output),
                   None, None, None, None, None)
  }

  /** The raw-log instruction's suggestion ends with the extracted error logs. */
  lemma RawLogCarriesLogs(output: string)
    ensures EndsWith(RawLogInstruction(output).suggestion, ExtractErrorLogs(output))
  {
    var logs := ExtractErrorLogs(output);
    var s := RawLogLabel + logs;
    assert s[|s| - |logs|..] == logs;
  }

  function SectionInstruction(ex: Extractors, s: Section): (r: FixInstruction)
    ensures Tagged(r, s.testName)
  {
    ParseFailureDetails(s.testName, s.content, ex.details(s.content))
  }

  /** An instruction as the failure analysis produces them: high severity, a
      bug, about the named test. */
  predicate Tagged(ins: FixInstruction, testName: string) {
    ins.severity == High && ins.category == Bug && ins.testName == Some(testName)
  }

  /** The names of the tests that have a section. */
  function SectionNames(secs: seq<Section>): (names: set<string>)
    ensures forall n :: n in names <==> exists i :: 0 <= i < |secs| && secs[i].testName == n
  {
    set i | 0 <= i < |secs| :: secs[i].testName
  }

  /** The summary entries whose test has no section, in order (duplicates
      among them are kept, as the Python code computes the known names once). */
  function Uncovered(fs: seq<SummaryFailure>, known: set<string>): (r: seq<SummaryFailure>)
    ensures |r| <= |fs|
    ensures forall f :: f in r <==> f in fs && f.testName !in known
    ensures known == {} ==> r == fs
  {
    if |fs| == 0 then []
    else
      assert forall f :: f in fs <==> f == fs[0] || f in fs[1..];
      assert known == {} ==> fs == [fs[0]] + fs[1..];
      (if fs[0].testName in known then [] else [fs[0]]) + Uncovered(fs[1..], known)
  }

  /** Filtering works entry by entry: it distributes over concatenation, so
      the kept entries stay in order and repeated entries are kept repeatedly. */
  lemma {:induction false} UncoveredAppend(a: seq<SummaryFailure>, b: seq<SummaryFailure>, known: set<string>)
    decreases |a|
    ensures Uncovered(a + b, known) == Uncovered(a, known) + Uncovered(b, known)
  {
    if |a| == 0 {
      assert a + b == b;
    } else {
      assert (a + b)[1..] == a[1..] + b;
      UncoveredAppend(a[1..], b, known);
    }
  }

  /** The instructions from the sections, then those from the summary entries
      that no section covers. */
  function Structured(secs: seq<Section>, summary: seq<SummaryFailure>,
                      sectionFix: Section -> FixInstruction,
                      summaryFix: SummaryFailure -> FixInstruction): seq<FixInstruction>
  {
    MapSeq(secs, sectionFix) + MapSeq(Uncovered(summary, SectionNames(secs)), summaryFix)
  }

  /** `_analyze_failures_for_fixer`. */
  function AnalyzeFailures(output: string, ex: Extractors): seq<FixInstruction>
  {
    Analyze(output, ex.sections(output), ex.summary(output),
            s => SectionInstruction(ex, s), SummaryInstruction, RawLogInstruction(output))
  }

  /** The analysis once the sections and the summary entries are found: the
      structured instructions, or the `raw` instruction when there are none
      and the output mentions FAILED or ERROR. */
  function Analyze(output: string, secs: seq<Section>, summary: seq<SummaryFailure>,
                   sectionFix: Section -> FixInstruction, summaryFix: SummaryFailure -> FixInstruction,
                   raw: FixInstruction): seq<FixInstruction>
  {
    var structured := Structured(secs, summary, sectionFix, summaryFix);
    if structured == [] && (Contains(output, "FAILED") || Contains(output, "ERROR")) then [raw]
    else structured
  }

  /** The structured instructions cover every test: section `i` gives
      instruction `i`, every summary entry is covered by its section or by an
      instruction of its own, no summary instruction repeats a test that has a
      section, and all are high-severity bugs. */
  lemma StructuredCoversTests(secs: seq<Section>, summary: seq<SummaryFailure>,
                              sectionFix: Section -> FixInstruction,
                              summaryFix: SummaryFailure -> FixInstruction)
    requires forall s :: Tagged(sectionFix(s), s.testName)
    requires forall f :: Tagged(summaryFix(f), f.testName)
    ensures var names := SectionNames(secs);
      var r := Structured(secs, summary, sectionFix, summaryFix);
      && (forall i :: 0 <= i < |secs| ==> r[i] == sectionFix(secs[i]))
      && (forall f :: f in summary ==> exists i :: 0 <= i < |r| && r[i].testName == Some(f.testName))
      && (forall i :: |secs| <= i < |r| ==> r[i].testName.Some? && r[i].testName.value !in names)
      && (forall i :: 0 <= i < |r| ==> r[i].severity == High && r[i].category == Bug && r[i].testName.Some?)
  {
    var names := SectionNames(secs);
    var fs := Uncovered(summary, names);
    var si := MapSeq(secs, sectionFix);
    var ui := MapSeq(fs, summaryFix);
    var r := si + ui;
    assert r == Structured(secs, summary, sectionFix, summaryFix);
    forall i | 0 <= i < |r|
      ensures Tagged(r[i], if i < |si| then secs[i].testName else fs[i - |si|].testName)
    {
      if i < |si| {
        assert r[i] == sectionFix(secs[i]);
      } else {
        assert r[i] == summaryFix(fs[i - |si|]);
      }
    }
    forall f | f in summary
      ensures exists i :: 0 <= i < |r| && r[i].testName == Some(f.testName)
    {
      if f.testName in names {
        var i :| 0 <= i < |secs| && secs[i].testName == f.testName;
        assert Tagged(r[i], secs[i].testName);
      } else {
        assert f in fs;
        var j :| 0 <= j < |fs| && fs[j] == f;
        assert Tagged(r[|si| + j], fs[j].testName);
      }
    }
    forall i | |secs| <= i < |r|
      ensures r[i].testName.Some? && r[i].testName.value !in names
    {
      assert Tagged(r[i], fs[i - |si|].testName);
      assert fs[i - |si|] in fs;
    }
  }

  /** Every failing test the output names gets an instruction: each section
      gives one, in order, and each short-summary entry is covered by its
      section or by an instruction of its own; every instruction is a
      high-severity bug about a named test. When no section and no summary
      entry exists, the result is the single raw-log instruction or nothing. */
  lemma AnalyzeFailuresCoversTests(output: string, ex: Extractors)
    ensures var r := AnalyzeFailures(output, ex);
      var secs := ex.sections(output);
      && (forall i :: 0 <= i < |secs| ==> r[i] == SectionInstruction(ex, secs[i]))
      && (forall f :: f in ex.summary(output) ==> exists i :: 0 <= i < |r| && r[i].testName == Some(f.testName))
      && (forall i :: 0 <= i < |r| ==> r[i].severity == High && r[i].category == Bug && r[i].testName.Some?)
      && (secs == [] && ex.summary(output) == [] ==> r == [] || r == [RawLogInstruction(output)])
  {
    var sectionFix := s => SectionInstruction(ex, s);
    assert forall s :: sectionFix(s) == SectionInstruction(ex, s);
    AnalyzeCoversTests(output, ex.sections(output), ex.summary(output),
                       sectionFix, SummaryInstruction, RawLogInstruction(output));
  }

  /** `AnalyzeFailuresCoversTests` for any instruction functions that tag
      their instruction with the test it is about. */
  lemma AnalyzeCoversTests(output: string, secs: seq<Section>, summary: seq<SummaryFailure>,
                           sectionFix: Section -> FixInstruction, summaryFix: SummaryFailure -> FixInstruction,
                           raw: FixInstruction)
    requires forall s :: Tagged(sectionFix(s), s.testName)
    requires forall f :: Tagged(summaryFix(f), f.testName)
    requires Tagged(raw, UnknownTest)
    ensures var r := Analyze(output, secs, summary, sectionFix, summaryFix, raw);
      && (forall i :: 0 <= i < |secs| ==> r[i] == sectionFix(secs[i]))
      && (forall f :: f in summary ==> exists i :: 0 <= i < |r| && r[i].testName == Some(f.testName))
      && (forall i :: 0 <= i < |r| ==> r[i].severity == High && r[i].category == Bug && r[i].testName.Some?)
      && (secs == [] && summary == [] ==> r == [] || r == [raw])
  {
    var structured := Structured(secs, summary, sectionFix, summaryFix);
    StructuredCoversTests(secs, summary, sectionFix, summaryFix);
    var r := Analyze(output, secs, summary, sectionFix, summaryFix, raw);
    if structured == [] {
      var names := SectionNames(secs);
      assert names == {};
      assert forall f :: f in summary ==> f in Uncovered(summary, names);
      assert r == [] || r == [raw];
    } else {
      assert r == structured;
    }
  }

  /** The analysis is empty exactly when no section, no summary entry and
      neither FAILED nor ERROR was found: a failing run can yield no
      instruction at all. */
  lemma AnalyzeFailuresEmptyIff(output: string, ex: Extractors)
    ensures AnalyzeFailures(output, ex) == [] <==>
      && ex.sections(output) == []
      && ex.summary(output) == []
      && !Contains(output, "FAILED") && !Contains(output, "ERROR")
  {
    var secs := ex.sections(output);
    if secs == [] {
      assert SectionNames(secs) == {};
      if ex.summary(output) != [] {
        assert ex.summary(output)[0] in Uncovered(ex.summary(output), {});
      }
    }
  }
}

=== FILE: file_operations.dfy ===
/** The sandbox guard and the dangerous-pattern scan of the file tools
    (src/tools/file_operations.py). Paths arrive already made absolute:
    `os.path.abspath` depends on the working directory and is not modelled. */
module FileOperations {
  import opened Wrappers
  import opened Text

  /** One file reported by the directory walk: its directory and its bare name. */
  datatype DirEntry = DirEntry(root: string, name: string)

  /** The entries of a walk whose bare name ends in `.py`, in walk order. */
  function PythonFiles(entries: seq<DirEntry>): (r: seq<DirEntry>)
    ensures |r| <= |entries|
    ensures forall e :: e in r <==> e in entries && EndsWith(e.name, ".py")
  {
    if |entries| == 0 then []
    else
      var rest := PythonFiles(entries[1..]);
      assert forall e :: e in entries <==> e == entries[0] || e in entries[1..];
      if EndsWith(entries[0].name, ".py") then [entries[0]] + rest else rest
  }

  /** Keeping the Python files of two walks one after the other is keeping
      those of each walk in turn: the filter never reorders. */
  lemma {:induction false} PythonFilesAppend(a: seq<DirEntry>, b: seq<DirEntry>)
    decreases |a|
    ensures PythonFiles(a + b) == PythonFiles(a) + PythonFiles(b)
  {
    if |a| == 0 {
      assert a + b == b;
    } else {
      assert (a + b)[1..] == a[1..] + b;
      PythonFilesAppend(a[1..], b);
    }
  }

  /** The directories writes are allowed under when the caller names none. */
  const DefaultAllowedDirs: seq<string> := ["sandbox", "test"]

  /** `SafetyValidator.is_safe_path`: some allowed directory name occurs in the
      absolute path; `None` selects the default list. */
  function IsSafePath(absPath: string, allowedDirs: Option<seq<string>>): (r: bool)
    ensures r <==> exists d :: d in allowedDirs.GetOr(DefaultAllowedDirs) && Contains(absPath, d)
  {
    AnyOccurs(absPath, allowedDirs.GetOr(DefaultAllowedDirs))
  }

  /** Python's `any(d in path for d in dirs)`. */
  function AnyOccurs(path: string, dirs: seq<string>): (r: bool)
    ensures r <==> exists d :: d in dirs && Contains(path, d)
  {
    if |dirs| == 0 then false
    else Contains(path, dirs[0]) || AnyOccurs(path, dirs[1..])
  }

  /** A write that the guard let through. */
  datatype FileWrite = FileWrite(path: string, content: string)

  /** `FileOperations.write_file`: refuses with a `PermissionError` message unless
      the absolute path mentions `sandbox` or `test`, otherwise writes `content`. */
  function WriteFile(path: string, absPath: string, content: string): (r: Result<FileWrite, string>)
    ensures r.Failure? <==> !Contains(absPath, "sandbox") && !Contains(absPath, "test")
    ensures r.Success? ==> r.value == FileWrite(path, content)
  {
    if !Contains(absPath, "sandbox") && !Contains(absPath, "test") then
      Failure("❌ Écriture interdite hors de sandbox: " + path)
    else
      Success(FileWrite(path, content))
  }

  /** The write guard and the default safe-path check accept the same paths. */
  lemma WriteGuardIsDefaultSafePath(path: string, absPath: string, content: string)
    ensures WriteFile(path, absPath, content).Success? <==> IsSafePath(absPath, None)
  {
    assert DefaultAllowedDirs[0] == "sandbox" && DefaultAllowedDirs[1] == "test";
    assert forall d :: d in DefaultAllowedDirs <==> d == "sandbox" || d == "test";
  }

  /** One entry of the blacklist: the substring looked for and its explanation. */
  datatype Pattern = Pattern(text: string, reason: string)

  const Blacklist: seq<Pattern> := [
    Pattern("os.system", "Exécution de commandes système"),
    Pattern("subprocess.call", "Exécution de sous-processus non contrôlée"),
    Pattern("eval(", "Utilisation de eval()"),
    Pattern("exec(", "Utilisation de exec()"),
    Pattern("__import__", "Import dynamique suspect"),
    Pattern("open(", "Opération fichier non contrôlée"),
    Pattern("rmtree", "Suppression récursive dangereuse")
  ]

  /** The warning emitted for a blacklisted pattern. */
  function Warning(p: Pattern): string {
    "⚠️ " + p.reason + ": '" + p.text + "' détecté"
  }

  datatype Validation = Validation(safe: bool, warnings: seq<string>)

  /** The warnings for the patterns of `patterns` that occur in `code`, in order. */
  function Warnings(code: string, patterns: seq<Pattern>): (r: seq<string>)
    ensures |r| <= |patterns|
    ensures r == [] <==> forall k :: 0 <= k < |patterns| ==> !Contains(code, patterns[k].text)
  {
    if |patterns| == 0 then []
    else
      var rest := Warnings(code, patterns[1..]);
      assert forall k :: 1 <= k < |patterns| ==> patterns[k] == patterns[1..][k - 1];
      if Contains(code, patterns[0].text) then [Warning(patterns[0])] + rest else rest
  }

  /** Every warning comes from a matching pattern and every matching pattern
      has its warning. */
  lemma {:induction false} WarningsMatchPatterns(code: string, patterns: seq<Pattern>)
    decreases |patterns|
    ensures forall w :: w in Warnings(code, patterns) ==>
      exists k :: 0 <= k < |patterns| && Contains(code, patterns[k].text) && w == Warning(patterns[k])
    ensures forall k :: 0 <= k < |patterns| && Contains(code, patterns[k].text) ==>
      Warning(patterns[k]) in Warnings(code, patterns)
  {
    if |patterns| > 0 {
      var rest := patterns[1..];
      WarningsMatchPatterns(code, rest);
      forall w | w in Warnings(code, rest)
        ensures exists k :: 0 <= k < |patterns| && Contains(code, patterns[k].text) && w == Warning(patterns[k])
      {
        var j :| 0 <= j < |rest| && Contains(code, rest[j].text) && w == Warning(rest[j]);
        assert patterns[j + 1] == rest[j];
      }
      forall k | 1 <= k < |patterns| && Contains(code, patterns[k].text)
        ensures Warning(patterns[k]) in Warnings(code, patterns)
      {
        assert patterns[k] == rest[k - 1];
      }
    }
  }

  /** Number of patterns of `patterns` that occur in `code`. */
  function MatchCount(code: string, patterns: seq<Pattern>): (n: nat)
    ensures n <= |patterns|
  {
    if |patterns| == 0 then 0
    else (if Contains(code, patterns[0].text) then 1 else 0) + MatchCount(code, patterns[1..])
  }

  /** Counting the matches of a non-empty prefix: the first pattern, then the rest. */
  lemma MatchCountPrefix(code: string, patterns: seq<Pattern>, k: nat)
    requires 1 <= k <= |patterns|
    ensures MatchCount(code, patterns[..k]) ==
      (if Contains(code, patterns[0].text) then 1 else 0) + MatchCount(code, patterns[1..][..k - 1])
  {
    assert patterns[..k][1..] == patterns[1..][..k - 1];
  }

  /** One warning per matching pattern, in blacklist order: the warning for the
      k-th pattern sits right after those of the matching patterns before it. */
  lemma {:induction false} WarningsInOrder(code: string, patterns: seq<Pattern>)
    decreases |patterns|
    ensures |Warnings(code, patterns)| == MatchCount(code, patterns)
    ensures forall k :: 0 <= k < |patterns| && Contains(code, patterns[k].text) ==>
      MatchCount(code, patterns[..k]) < |Warnings(code, patterns)| &&
      Warnings(code, patterns)[MatchCount(code, patterns[..k])] == Warning(patterns[k])
  {
    if |patterns| > 0 {
      var rest := patterns[1..];
      var w := Warnings(code, patterns);
      var wr := Warnings(code, rest);
      WarningsInOrder(code, rest);
      var m := if Contains(code, patterns[0].text) then 1 else 0;
      assert w == if m == 1 then [Warning(patterns[0])] + wr else wr;
      assert MatchCount(code, patterns[..0]) == 0;
      forall k | 1 <= k < |patterns| && Contains(code, patterns[k].text)
        ensures MatchCount(code, patterns[..k]) < |w|
        ensures w[MatchCount(code, patterns[..k])] == Warning(patterns[k])
      {
        MatchCountPrefix(code, patterns, k);
        assert rest[k - 1] == patterns[k];
        var i := MatchCount(code, rest[..k - 1]);
        assert i < |wr| && wr[i] == Warning(rest[k - 1]);
      }
    }
  }

  /** `SafetyValidator.validate_python_code`. */
  function ValidatePythonCode(code: string): (r: Validation)
    ensures r.safe <==> forall k :: 0 <= k < |Blacklist| ==> !Contains(code, Blacklist[k].text)
    ensures |r.warnings| == MatchCount(code, Blacklist) <= 7
    ensures forall k :: 0 <= k < |Blacklist| && Contains(code, Blacklist[k].text) ==> Warning(Blacklist[k]) in r.warnings
    ensures forall w :: w in r.warnings ==> exists k :: 0 <= k < |Blacklist| && Contains(code, Blacklist[k].text) && w == Warning(Blacklist[k])
  {
    var warnings := Warnings(code, Blacklist);
    WarningsMatchPatterns(code, Blacklist);
    WarningsInOrder(code, Blacklist);
    Validation(|warnings| == 0, warnings)
  }
}

=== FILE: fixer.dfy ===
/** The fixer agent (src/agents/fixer.py): pulling code out of a model reply
    and the decisions `apply_fixes` takes around the model call. The same
    extraction is used by the judge for generated tests. */
module Fixer {
  import opened Wrappers
  import opened Text
  import opened Instructions
  import opened FileOperations

  const Fence: string := "```"
  const PythonFence: string := "```python"

  /** The text `_extract_code` strips: the body of the first fenced block, or
      the whole reply when it holds no fence. */
  function FencedBody(response: string): (body: string)
    ensures !Contains(body, Fence)
    ensures !Contains(response, Fence) ==> body == response
  {
    if Contains(response, PythonFence) then
      PythonTagIsFence(response);
      Split(Split(response, PythonFence)[1], Fence)[0]
    else if Contains(response, Fence) then Split(Split(response, Fence)[1], Fence)[0]
    else response
  }

  /** `_extract_code`: the code of the first fenced block of a model reply,
      stripped; the whole reply stripped when it holds no fence. */
  function ExtractCode(response: string): (r: string)
    ensures !Contains(r, Fence)
    ensures !Contains(response, Fence) ==> r == Strip(response)
  {
    var body := FencedBody(response);
    StripKeepsAbsence(body, Fence);
    Strip(body)
  }

  /** A text holding "```python" holds a fence. */
  lemma PythonTagIsFence(s: string)
    requires Contains(s, PythonFence)
    ensures Contains(s, Fence) && IndexOf(s, Fence) <= IndexOf(s, PythonFence)
  {
    var i := IndexOf(s, PythonFence);
    assert s[i..i + 3] == s[i..i + 9][..3];
    assert OccursAt(s, Fence, i);
  }

  /** `Before` leaves a text without the separator unchanged. */
  lemma BeforeWithout(s: string, sep: string)
    requires sep != "" && !Contains(s, sep)
    ensures Before(s, sep) == s
  {
  }

  /** The first occurrence of `sep` in `s` is also the first one in any prefix
      of `s` that still holds it whole. */
  lemma BeforeInPrefix(s: string, sep: string, i: nat)
    requires sep != "" && i <= |s|
    requires Contains(s, sep) && IndexOf(s, sep) + |sep| <= i
    ensures Before(s[..i], sep) == Before(s, sep)
  {
    var j := IndexOf(s, sep);
    assert OccursAt(s[..i], sep, j) by {
      assert s[..i][j..j + |sep|] == s[j..j + |sep|];
    }
    forall k | 0 <= k < j
      ensures OccursAt(s[..i], sep, k) ==> OccursAt(s, sep, k)
    {
      if k + |sep| <= i {
        assert s[..i][k..k + |sep|] == s[k..k + |sep|];
      }
    }
    assert IndexOf(s[..i], sep) == j;
  }

  /** Without a `python` tag, the result is the stripped text between the first
      and the second fence (or the end of the reply). */
  lemma ExtractBetweenFences(response: string)
    requires Contains(response, Fence) && !Contains(response, PythonFence)
    ensures ExtractCode(response) == Strip(Before(After(response, Fence), Fence))
  {
    BeforeWithout(Before(After(response, Fence), Fence), Fence);
  }

  /** With a `python` tag, the result is the stripped text between the first
      "```python" and the next fence (or the end of the reply), provided no run
      of four backticks follows the tag: Python splits on "```python" first, so
      a fence overlapping a later "```python" would cut the block elsewhere. */
  lemma ExtractAfterPythonTag(response: string)
    requires Contains(response, PythonFence)
    requires !Contains(After(response, PythonFence), "````")
    ensures ExtractCode(response) == Strip(Before(After(response, PythonFence), Fence))
  {
    var a := After(response, PythonFence);
    var t := Split(response, PythonFence)[1];
    assert t == Before(a, PythonFence);
    if Contains(a, PythonFence) {
      var i := IndexOf(a, PythonFence);
      PythonTagIsFence(a);
      FenceEndsBeforeTag(a);
      if IndexOf(a, Fence) == i {
        assert t == a[..i] == Before(a, Fence);
        BeforeWithout(t, Fence);
      } else {
        BeforeInPrefix(a, Fence, i);
      }
    } else {
      BeforeWithout(a, PythonFence);
    }
  }

  /** In a text without four backticks in a row, the first fence either opens
      the first "```python" or ends before it starts. */
  lemma FenceEndsBeforeTag(a: string)
    requires Contains(a, PythonFence) && !Contains(a, "````")
    ensures Contains(a, Fence)
    ensures IndexOf(a, Fence) == IndexOf(a, PythonFence) || IndexOf(a, Fence) + 3 <= IndexOf(a, PythonFence)
  {
    var i := IndexOf(a, PythonFence);
    PythonTagIsFence(a);
    var j := IndexOf(a, Fence);
    if j < i < j + 3 {
      OverlapMakesFourTicks(a, i, j);
      assert false;
    }
  }

  /** A "```python" starting inside an earlier fence makes four backticks in a row. */
  lemma OverlapMakesFourTicks(a: string, i: nat, j: nat)
    requires OccursAt(a, PythonFence, i) && OccursAt(a, Fence, j) && j < i < j + 3
    ensures Contains(a, "````")
  {
    assert a[i..i + 3] == Fence by {
      assert a[i..i + 3] == a[i..i + 9][..3];
    }
    forall k | j <= k < j + 4
      ensures a[k] == '`'
    {
      if k < i {
        assert a[k] == a[j..j + 3][k - j];
      } else {
        assert a[k] == a[i..i + 3][k - i];
      }
    }
    assert a[j..j + 4] == "````";
    assert OccursAt(a, "````", j);
  }

  /** Extraction is idempotent: its result holds no fence, so extracting again
      only strips an already stripped text. */
  lemma ExtractIdempotent(response: string)
    ensures ExtractCode(ExtractCode(response)) == ExtractCode(response)
  {
    var r := ExtractCode(response);
    StripIdempotent(FencedBody(response));
    if Contains(r, PythonFence) {
      PythonTagIsFence(r);
      assert false;
    }
    assert FencedBody(r) == r;
  }

  /** What `apply_fixes` sees of the outside world for one call: the file path
      and its absolute form, the outcome of reading the file and the outcome of
      the model call (its reply text or the exception message). */
  datatype FixerIO = FixerIO(path: string, absPath: string, read: Result<string, string>,
                             reply: Result<string, string>)

  /** `Returned` is a normal return with the value returned and the write that
      happened, if any; `Raised` is an exception escaping to the caller. */
  datatype FixerOutcome = Returned(value: string, written: Option<FileWrite>) | Raised(error: string)

  /** `FixerAgent.apply_fixes`. */
  function ApplyFixes(issues: seq<FixInstruction>, io: FixerIO): (r: FixerOutcome)
    ensures issues == [] ==> r == Returned("1", None)
    ensures r.Raised? <==> issues != [] && io.read.Failure?
    ensures r.Returned? && r.written.None? ==> r.value == "0" || r.value == "1"
    ensures r.Returned? && r.written.Some? ==>
      && io.reply.Success?
      && r.value == ExtractCode(io.reply.value) != ""
      && r.written.value == FileWrite(io.path, r.value)
    ensures r.Returned? && r.written.Some? <==>
      && issues != [] && io.read.Success? && io.reply.Success?
      && ExtractCode(io.reply.value) != ""
      && (Contains(io.absPath, "sandbox") || Contains(io.absPath, "test"))
  {
    if issues == [] then Returned("1", None)
    else if io.read.Failure? then Raised(io.read.error)
    else match io.reply
      case Failure(_) => Returned("0", None)
      case Success(reply) =>
        var code := ExtractCode(reply);
        if Strip(code) == "" then Returned("0", None)
        else match WriteFile(io.path, io.absPath, code)
          case Failure(_) => Returned("0", None)
          case Success(w) => Returned(code, Some(w))
  }
}

=== FILE: instructions.dfy ===
/** The fix-instruction record that the auditor, the judge and the repair loop
    hand to the fixer. The Python code uses dictionaries whose keys vary with
    the producer; a key that a producer does not set is `None` here. */
module Instructions {
  import opened Wrappers

  datatype Severity = High | Medium | Low

  /** The `type` key of an instruction. */
  datatype Category = Bug | Quality | Style | Tests

  datatype FixInstruction = FixInstruction(
    severity: Severity,
    category: Category,
    line: Option<int>,
    testName: Option<string>,
    errorType: Option<string>,
    description: string,
    suggestion: string,
    testCode: Option<string>,
    expected: Option<string>,
    actual: Option<string>,
    errorDetails: Option<string>,
    call: Option<(string, string)>)

  /** An instruction carrying only the keys `severity`, `type`, `description`
      and `suggestion` (plus `line` when given). */
  function Plain(severity: Severity, category: Category, line: Option<int>,
                 description: string, suggestion: string): (r: FixInstruction)
    ensures r.severity == severity && r.category == category && r.line == line
    ensures r.description == description && r.suggestion == suggestion
    ensures r.testName.None? && r.errorType.None? && r.errorDetails.None?
  {
    FixInstruction(severity, category, line, None, None, description, suggestion,
                   None, None, None, None, None)
  }
}

=== FILE: judge.dfy ===
/** The judge agent's result shaping (src/agents/judge.py): what `run_tests`
    returns for each way a pytest run can end, what `judge` returns around test
    generation, and the tolerance rule applied after the last repair round.
    Running pytest and generating tests are outside the model: their outcomes
    are inputs. */
module Judge {
  import opened Wrappers
  import opened Text
  import opened Instructions
  import opened PytestOutput
  import opened Failures

  /** How the pytest subprocess ended: normally with its two output streams,
      by the 60-second timeout, or with any other exception. */
  datatype RunOutcome = Completed(stdout: string, stderr: string) | TimedOut | Raised(message: string)

  /** The dictionary `run_tests` returns. */
  datatype TestResults = TestResults(success: bool, counts: Counts, output: string,
                                     errorLogs: string, fixInstructions: seq<FixInstruction>)

  const TimeoutMessage: string := "Pytest timeout (>60s)"
  const TimeoutDescription: string :=
    "Les tests ont timeout (>60s). Vérifier les boucles infinies ou opérations bloquantes."
  const TimeoutSuggestion: string :=
    "Vérifier les boucles while, les appels récursifs, et les opérations I/O dans le code source."
  const RunErrorLabel: string := "Erreur d'exécution des tests: "
  const RunErrorSuggestion: string :=
    "Vérifier que le code source est syntaxiquement correct et que toutes les dépendances sont importables."

  /** The results of a run that did not complete: one error, no pass, and a
      single instruction. */
  function Unfinished(message: string, description: string, suggestion: string): (r: TestResults)
    ensures !r.success && r.counts == Counts(0, 0, 1)
    ensures r.output == message && r.errorLogs == message
    ensures |r.fixInstructions| == 1 && r.fixInstructions[0].severity == High && r.fixInstructions[0].category == Bug
  {
    TestResults(false, Counts(0, 0, 1), message, message,
                [Plain(High, Bug, None, description, suggestion)])
  }

  /** `JudgeAgent.run_tests`. */
  function RunTests(run: RunOutcome, ex: Extractors): (r: TestResults)
    ensures r.success <==> r.counts.failed == 0 && r.counts.errors == 0
    ensures r.success ==> r.errorLogs == "" && r.fixInstructions == []
    ensures !run.Completed? ==>
      && !r.success && r.counts == Counts(0, 0, 1)
      && |r.fixInstructions| == 1 && r.fixInstructions[0].severity == High && r.fixInstructions[0].category == Bug
    ensures run.TimedOut? ==> r.errorLogs == TimeoutMessage
    ensures run.Raised? ==> r.errorLogs == run.message
    ensures run.Completed? ==> r.output == run.stdout + run.stderr
    ensures run.Completed? && !r.success ==>
      r.errorLogs == ExtractErrorLogs(r.output) && r.fixInstructions == AnalyzeFailures(r.output, ex)
  {
    match run
    case TimedOut => Unfinished(TimeoutMessage, TimeoutDescription, TimeoutSuggestion)
    case Raised(message) => Unfinished(message, RunErrorLabel + message, RunErrorSuggestion)
    case Completed(stdout, stderr) =>
      var output := stdout + stderr;
      var counts := ParsePytestOutput(output).counts;
      var success := counts.failed == 0 && counts.errors == 0;
      TestResults(success, counts, output,
                  if success then "" else ExtractErrorLogs(output),
                  if success then [] else AnalyzeFailures(output, ex))
  }

  /** A completed run succeeds exactly when the output is not a collection
      failure, the summary lines report no failure and no error, and either
      some test passed or pytest said it collected 0 items. */
  lemma RunTestsSucceedsIff(stdout: string, stderr: string, ex: Extractors)
    ensures var output := stdout + stderr;
      var lines := Split(output, "\n");
      RunTests(Completed(stdout, stderr), ex).success <==>
        && !CollectionFailed(output)
        && ReportedValue(lines, Failed) == 0 && ReportedValue(lines, Error) == 0
        && (ReportedValue(lines, Passed) > 0 || CollectedCount(output) == Some(0))
  {
    var output := stdout + stderr;
    var lines := Split(output, "\n");
    ScanReadsLastReport(lines, Passed);
    ScanReadsLastReport(lines, Failed);
    ScanReadsLastReport(lines, Error);
  }

  /** The two outcomes of `judge`. */
  datatype Verdict = Pass | Fail

  /** The dictionary `judge` returns; `testResults` is `None` when test
      generation failed. */
  datatype JudgeResult = JudgeResult(success: bool, verdict: Verdict, testResults: Option<TestResults>,
                                     errorLogs: string, fixInstructions: seq<FixInstruction>)

  const GenerationLogLabel: string := "Test generation failed: "
  const GenerationErrorLabel: string := "Échec de génération des tests: "
  const GenerationSuggestion: string := "Vérifier que le code source est valide et peut être importé."

  /** Whether `judge` generates tests before running them. */
  predicate GeneratesTests(regenerate: bool, testFileExists: bool) {
    regenerate || !testFileExists
  }

  /** `JudgeAgent.judge`: `generation` is the outcome of `generate_tests`
      (used only when tests are generated) and `run` that of the pytest run. */
  function JudgeFile(regenerate: bool, testFileExists: bool, generation: Result<(), string>,
                     run: RunOutcome, ex: Extractors): (r: JudgeResult)
    ensures r.testResults.None? <==> GeneratesTests(regenerate, testFileExists) && generation.Failure?
    ensures r.testResults.Some? ==> r.testResults.value == RunTests(run, ex)
    ensures r.success <==> r.testResults.Some? && r.testResults.value.success
    ensures r.verdict == Pass <==> r.success
    ensures r.testResults.Some? ==>
      r.errorLogs == r.testResults.value.errorLogs && r.fixInstructions == r.testResults.value.fixInstructions
    ensures r.testResults.None? ==>
      && r.errorLogs == GenerationLogLabel + generation.error
      && |r.fixInstructions| == 1 && r.fixInstructions[0].severity == High && r.fixInstructions[0].category == Bug
  {
    if GeneratesTests(regenerate, testFileExists) && generation.Failure? then
      JudgeResult(false, Fail, None, GenerationLogLabel + generation.error,
                  [Plain(High, Bug, None, GenerationErrorLabel + generation.error, GenerationSuggestion)])
    else
      var results := RunTests(run, ex);
      JudgeResult(results.success, if results.success then Pass else Fail, Some(results),
                  results.errorLogs, results.fixInstructions)
  }

  // ---------------------------------------------------------------------------
  // evaluate_with_tolerance

  /** `PASS_RATE_THRESHOLD` (0.90) as a fraction. */
  const ThresholdNumerator: nat := 9
  const ThresholdDenominator: nat := 10
  /** `MIN_TESTS_FOR_TOLERANCE`. */
  const MinTestsForTolerance: nat := 10

  /** The `reason` text, by case; the last three carry the pass rate as
      passed and total tests. */
  datatype Reason =
    | NoResults
    | NoTestsRun
    | AcceptableMany(passed: nat, total: nat)
    | AcceptableFew(passed: nat, total: nat)
    | Insufficient(passed: nat, total: nat)

  /** The dictionary `evaluate_with_tolerance` returns; the float `pass_rate`
      is kept exact as `rateNum / rateDen`. */
  datatype Tolerance = Tolerance(acceptable: bool, rateNum: nat, rateDen: nat,
                                 passed: nat, failed: nat, reason: Reason)

  /** `passed / total >= 0.90`, by cross-multiplication. */
  predicate MeetsThreshold(passed: nat, total: nat) {
    ThresholdDenominator * passed >= ThresholdNumerator * total
  }

  /** `JudgeAgent.evaluate_with_tolerance`; `None` stands for missing or empty
      test results. */
  function EvaluateWithTolerance(results: Option<Counts>): (r: Tolerance)
    ensures r.rateDen > 0
    ensures r.acceptable <==> results.Some? && results.value.Total() > 0 && 10 * results.value.passed >= 9 * results.value.Total()
    ensures results.None? ==> r.reason == NoResults
    ensures results.Some? && results.value.Total() == 0 ==> r.reason == NoTestsRun
    ensures results.Some? && results.value.Total() > 0 ==>
      && r.rateNum == results.value.passed && r.rateDen == results.value.Total()
      && r.passed == results.value.passed && r.failed == results.value.failed
    ensures r.acceptable ==> (r.reason.AcceptableMany? <==> r.rateDen >= MinTestsForTolerance)
    ensures !r.acceptable ==> r.rateNum == 0 || r.reason.Insufficient?
  {
    match results
    case None => Tolerance(false, 0, 1, 0, 0, NoResults)
    case Some(c) =>
      var total := c.Total();
      if total == 0 then Tolerance(false, 0, 1, 0, 0, NoTestsRun)
      else if total >= MinTestsForTolerance && MeetsThreshold(c.passed, total) then
        Tolerance(true, c.passed, total, c.passed, c.failed, AcceptableMany(c.passed, total))
      else if total < MinTestsForTolerance && MeetsThreshold(c.passed, total) then
        Tolerance(true, c.passed, total, c.passed, c.failed, AcceptableFew(c.passed, total))
      else
        Tolerance(false, c.passed, total, c.passed, c.failed, Insufficient(c.passed, total))
  }

  /** Acceptance is monotone: with the same number of tests, passing more of
      them never turns an accepted result into a rejected one. */
  lemma ToleranceMonotone(a: Counts, b: Counts)
    requires a.Total() == b.Total() && a.passed <= b.passed
    ensures EvaluateWithTolerance(Some(a)).acceptable ==> EvaluateWithTolerance(Some(b)).acceptable
  {
  }

  /** An accepted result has at most one failure or error per ten tests, and
      a run the judge already counts as a success is accepted as soon as it
      ran a test. */
  lemma ToleranceBounds(c: Counts)
    ensures EvaluateWithTolerance(Some(c)).acceptable ==> 10 * (c.failed + c.errors) <= c.Total()
    ensures c.failed == 0 && c.errors == 0 && c.passed > 0 ==> EvaluateWithTolerance(Some(c)).acceptable
  {
  }
}

=== FILE: pytest_output.dfy ===
/** Reading pytest's console output (src/agents/judge.py, `_parse_pytest_output`
    and `_extract_error_logs`). The regular expressions the Python code uses are
    modelled by their leftmost-match semantics; `\d` is restricted to ASCII
    digits. */
module PytestOutput {
  import opened Wrappers
  import opened Text

  /** The three counters read from a summary line. */
  datatype Outcome = Passed | Failed | Error {
    /** The word that follows the number in `(\d+)\s+<word>`. */
    function Word(): string {
      match this
      case Passed => "passed"
      case Failed => "failed"
      case Error => "error"
    }
  }

  datatype Counts = Counts(passed: nat, failed: nat, errors: nat) {
    function Get(o: Outcome): nat {
      match o
      case Passed => passed
      case Failed => failed
      case Error => errors
    }

    function Total(): nat { passed + failed + errors }
  }

  const Zero: Counts := Counts(0, 0, 0)

  /** The dictionary `_parse_pytest_output` returns; `collectionError` is the
      `collection_error` key, present only on the two early returns. */
  datatype Parsed = Parsed(counts: Counts, collectionError: bool)

  // ---------------------------------------------------------------------------
  // The regular expression (\d+)\s+<word>

  /** `(\d+)\s+<word>` matches starting at index `i`. Neither `+` can give back
      characters: a shorter digit run is followed by a digit and a shorter
      space run by a space, so the match is unique once `i` is fixed. */
  predicate NumberWordAt(s: string, word: string, i: nat) {
    i < |s| && IsDigit(s[i]) &&
    var d := DigitRun(s, i);
    var w := SpaceRun(s, i + d);
    w >= 1 && OccursAt(s, word, i + d + w)
  }

  /** The integer read by `int(m.group(1))` for a match at `i`. */
  function NumberAt(s: string, i: nat): nat
    requires i <= |s|
  {
    DigitsValue(s[i..i + DigitRun(s, i)])
  }

  /** The leftmost index `>= k` where `(\d+)\s+<word>` matches. */
  function FirstNumberWord(s: string, word: string, k: nat): (r: Option<nat>)
    ensures r.Some? ==> k <= r.value < |s| && NumberWordAt(s, word, r.value)
  {
    FirstWhere((i: nat) => NumberWordAt(s, word, i), k, |s|)
  }

  /** `FirstNumberWord` finds the leftmost match at or after `k`, and `None`
      means there is none. */
  lemma FirstNumberWordIsLeftmost(s: string, word: string, k: nat)
    ensures var r := FirstNumberWord(s, word, k);
      forall j :: k <= j && (r.None? || j < r.value) ==> !NumberWordAt(s, word, j)
  {
    var p := (i: nat) => NumberWordAt(s, word, i);
    FirstWhereIsLeftmost(p, k, |s|);
    assert forall j: nat :: p(j) == NumberWordAt(s, word, j);
  }

  /** `re.search(r'(\d+)\s+<word>', s)` followed by `int(m.group(1))`. */
  function SearchCount(s: string, word: string): Option<nat> {
    match FirstNumberWord(s, word, 0)
    case None => None
    case Some(i) => Some(NumberAt(s, i))
  }

  /** The search fails exactly when the pattern matches nowhere; otherwise it
      reads the number of the leftmost match. */
  lemma SearchCountIsLeftmost(s: string, word: string)
    ensures SearchCount(s, word).None? <==> forall j :: !NumberWordAt(s, word, j)
    ensures SearchCount(s, word).Some? ==> exists i ::
      && NumberWordAt(s, word, i) && SearchCount(s, word).value == NumberAt(s, i)
      && (forall j :: j < i ==> !NumberWordAt(s, word, j))
  {
    FirstNumberWordIsLeftmost(s, word, 0);
  }

  /** The leftmost match starts at the beginning of a run of digits, so the
      whole number is read and never a tail of it. */
  lemma LeftmostMatchReadsWholeNumber(s: string, word: string)
    requires FirstNumberWord(s, word, 0).Some?
    ensures var i := FirstNumberWord(s, word, 0).value; i == 0 || !IsDigit(s[i - 1])
  {
    var i := FirstNumberWord(s, word, 0).value;
    FirstNumberWordIsLeftmost(s, word, 0);
    if i > 0 && IsDigit(s[i - 1]) {
      MatchExtendsLeft(s, word, i);
      assert false;
    }
  }

  /** A match preceded by a digit is also a match one position earlier. */
  lemma MatchExtendsLeft(s: string, word: string, i: nat)
    requires 0 < i && NumberWordAt(s, word, i) && IsDigit(s[i - 1])
    ensures NumberWordAt(s, word, i - 1)
  {
    var d := DigitRun(s, i);
    assert DigitRun(s, i - 1) == 1 + d;
    assert (i - 1) + DigitRun(s, i - 1) == i + d;
  }

  /** Decimal rendering of a natural number, as pytest prints its counters. */
  function Decimal(n: nat): (r: string)
    ensures |r| >= 1
    ensures forall k :: 0 <= k < |r| ==> IsDigit(r[k])
  {
    var c := ('0' as int + n % 10) as char;
    if n < 10 then [c] else Decimal(n / 10) + [c]
  }

  /** `int()` reads back what `Decimal` prints. */
  lemma {:induction false} DecimalValue(n: nat)
    ensures DigitsValue(Decimal(n)) == n
  {
    if n >= 10 {
      DecimalValue(n / 10);
      var d := Decimal(n);
      assert d[..|d| - 1] == Decimal(n / 10);
    }
  }

  /** Digits followed by a non-digit form a run of exactly that length. */
  lemma {:induction false} DigitRunOfPrefix(s: string, d: string, i: nat)
    requires i + |d| <= |s| && s[i..i + |d|] == d
    requires forall k :: 0 <= k < |d| ==> IsDigit(d[k])
    requires i + |d| == |s| || !IsDigit(s[i + |d|])
    decreases |d|
    ensures DigitRun(s, i) == |d|
  {
    if |d| > 0 {
      assert s[i] == d[0];
      assert s[i + 1..i + 1 + |d[1..]|] == d[1..];
      DigitRunOfPrefix(s, d[1..], i + 1);
    }
  }

  /** A counter rendered the way pytest writes it, "<n> <word>", is read back
      as `n`. */
  lemma ReadsRenderedCount(n: nat, word: string)
    requires |word| >= 1 && !IsDigit(word[0]) && !IsSpace(word[0])
    ensures SearchCount(Decimal(n) + " " + word, word) == Some(n)
  {
    var d := Decimal(n);
    var s := d + " " + word;
    assert s[0..|d|] == d;
    assert s[|d|] == ' ';
    DigitRunOfPrefix(s, d, 0);
    assert SpaceRun(s, |d| + 1) == 0 by { assert s[|d| + 1] == word[0]; }
    assert SpaceRun(s, |d|) == 1;
    assert s[|d| + 1..|d| + 1 + |word|] == word;
    assert NumberWordAt(s, word, 0);
    assert FirstNumberWord(s, word, 0) == Some(0);
    DecimalValue(n);
  }

  // ---------------------------------------------------------------------------
  // The scan over the lines of the output

  /** A line that the scan reads counters from. */
  predicate IsSummaryLine(line: string) {
    Contains(line, "=====") && (Contains(line, "passed") || Contains(line, "failed"))
  }

  /** The line reports a number for `o`. */
  predicate Reports(line: string, o: Outcome) {
    IsSummaryLine(line) && SearchCount(line, o.Word()).Some?
  }

  /** One iteration of the loop over the lines: on a summary line, every counter
      with a match is overwritten and the others are kept. */
  function ScanStep(acc: Counts, line: string): (r: Counts)
    ensures forall o :: r.Get(o) == if Reports(line, o) then SearchCount(line, o.Word()).value else acc.Get(o)
  {
    if IsSummaryLine(line) then
      Counts(SearchCount(line, "passed").GetOr(acc.passed),
             SearchCount(line, "failed").GetOr(acc.failed),
             SearchCount(line, "error").GetOr(acc.errors))
    else acc
  }

  /** The counters after the loop has processed the first `n` lines. */
  function ScanPrefix(lines: seq<string>, n: nat): Counts
    requires n <= |lines|
  {
    if n == 0 then Zero else ScanStep(ScanPrefix(lines, n - 1), lines[n - 1])
  }

  /** The counters after the loop has processed all of `lines`. */
  function Scan(lines: seq<string>): Counts {
    ScanPrefix(lines, |lines|)
  }

  /** Index of the last of the first `n` lines that reports a number for `o`,
      or -1. */
  function LastReportBelow(lines: seq<string>, o: Outcome, n: nat): (r: int)
    requires n <= |lines|
    ensures -1 <= r < n
    ensures r >= 0 ==> Reports(lines[r], o)
    ensures forall m :: r < m < n ==> !Reports(lines[m], o)
  {
    var p := (i: nat) => i < |lines| && Reports(lines[i], o);
    var r := LastWhere(p, n);
    assert forall m: nat :: p(m) == (m < |lines| && Reports(lines[m], o));
    r
  }

  /** Index of the last line of `lines` that reports a number for `o`, or -1. */
  function LastReport(lines: seq<string>, o: Outcome): int {
    LastReportBelow(lines, o, |lines|)
  }

  /** The number the last reporting summary line gives for `o`, 0 if none. */
  function ReportedValue(lines: seq<string>, o: Outcome): nat {
    var k := LastReport(lines, o);
    if k < 0 then 0 else SearchCount(lines[k], o.Word()).value
  }

  /** After `n` lines, each counter holds the number on the LAST summary line
      so far that reports it, and 0 when none does. */
  lemma {:induction false} ScanPrefixReadsLastReport(lines: seq<string>, o: Outcome, n: nat)
    requires n <= |lines|
    ensures ScanPrefix(lines, n).Get(o) ==
      if LastReportBelow(lines, o, n) < 0 then 0 else SearchCount(lines[LastReportBelow(lines, o, n)], o.Word()).value
  {
    if n > 0 {
      ScanPrefixReadsLastReport(lines, o, n - 1);
    }
  }

  /** Each counter holds the number on the LAST summary line that reports it,
      and 0 when no summary line does. */
  lemma ScanReadsLastReport(lines: seq<string>, o: Outcome)
    ensures Scan(lines).Get(o) == ReportedValue(lines, o)
  {
    ScanPrefixReadsLastReport(lines, o, |lines|);
  }

  // ---------------------------------------------------------------------------
  // The regular expression collected\s+(\d+)\s+item

  /** `collected\s+(\d+)\s+item` matches starting at index `i`. */
  predicate CollectedAt(s: string, i: nat) {
    OccursAt(s, "collected", i) &&
    SpaceRun(s, i + 9) >= 1 && NumberWordAt(s, "item", CountStart(s, i))
  }

  /** The leftmost index `>= k` where `collected\s+(\d+)\s+item` matches. */
  function FirstCollected(s: string, k: nat): (r: Option<nat>)
    ensures r.Some? ==> k <= r.value && CollectedAt(s, r.value)
  {
    FirstWhere((i: nat) => CollectedAt(s, i), k, |s|)
  }

  /** `FirstCollected` finds the leftmost match at or after `k`. */
  lemma FirstCollectedIsLeftmost(s: string, k: nat)
    ensures var r := FirstCollected(s, k);
      forall j :: k <= j && (r.None? || j < r.value) ==> !CollectedAt(s, j)
  {
    var p := (i: nat) => CollectedAt(s, i);
    FirstWhereIsLeftmost(p, k, |s|);
    assert forall j: nat :: p(j) == CollectedAt(s, j);
  }

  /** The number of collected items pytest announced, or `None` when the
      output has no "collected N item" phrase. */
  function CollectedCount(s: string): Option<nat> {
    match FirstCollected(s, 0)
    case None => None
    case Some(i) => Some(NumberAt(s, CountStart(s, i)))
  }

  /** The count is absent exactly when the phrase occurs nowhere; otherwise
      it is the number of the leftmost occurrence. */
  lemma CollectedCountIsLeftmost(s: string)
    ensures CollectedCount(s).None? <==> forall j :: !CollectedAt(s, j)
    ensures CollectedCount(s).Some? ==> exists i ::
      && CollectedAt(s, i) && CollectedCount(s).value == NumberAt(s, CountStart(s, i))
      && (forall j :: j < i ==> !CollectedAt(s, j))
  {
    FirstCollectedIsLeftmost(s, 0);
  }

  /** Where the number starts in a match of `collected\s+(\d+)\s+item` at `i`. */
  function CountStart(s: string, i: nat): nat {
    i + 9 + SpaceRun(s, i + 9)
  }

  // ---------------------------------------------------------------------------
  // _parse_pytest_output

  /** The two early returns: an error during collection, or nothing collected. */
  predicate CollectionFailed(output: string) {
    (Contains(output, "ERROR") && Contains(Lower(output), "collecting"))
    || Contains(Lower(output), "no tests ran") || Contains(Lower(output), "0 items collected")
  }

  /** `JudgeAgent._parse_pytest_output`. */
  function ParsePytestOutput(output: string): (r: Parsed)
    ensures r.collectionError <==> CollectionFailed(output)
    ensures r.collectionError ==> r.counts == Counts(0, 0, 1)
    ensures !r.collectionError && Scan(Split(output, "\n")) != Zero ==> r.counts == Scan(Split(output, "\n"))
    ensures !r.collectionError && Scan(Split(output, "\n")) == Zero ==>
      r.counts == if CollectedCount(output) == Some(0) then Zero else Counts(0, 0, 1)
  {
    if CollectionFailed(output) then Parsed(Counts(0, 0, 1), true)
    else
      var c := Scan(Split(output, "\n"));
      if c.passed == 0 && c.failed == 0 && c.errors == 0 then
        match CollectedCount(output)
        case Some(n) => if n > 0 then Parsed(Counts(0, 0, 1), false) else Parsed(c, false)
        case None => Parsed(Counts(0, 0, 1), false)
      else Parsed(c, false)
  }

  /** The parser reports all-zero counters exactly when the output is not a
      collection failure, every summary line's last report of each counter is
      0 (or there is none), and pytest said it collected 0 items. */
  lemma ParseZeroIff(output: string)
    ensures ParsePytestOutput(output).counts == Zero <==>
      && !CollectionFailed(output)
      && (forall o :: ReportedValue(Split(output, "\n"), o) == 0)
      && CollectedCount(output) == Some(0)
  {
    var lines := Split(output, "\n");
    forall o ensures Scan(lines).Get(o) == ReportedValue(lines, o) {
      ScanReadsLastReport(lines, o);
    }
    assert Scan(lines).passed == Scan(lines).Get(Passed);
    assert Scan(lines).failed == Scan(lines).Get(Failed);
    assert Scan(lines).errors == Scan(lines).Get(Error);
  }

  // ---------------------------------------------------------------------------
  // _extract_error_logs

  /** A line that switches capturing on. */
  predicate IsTrigger(line: string) {
    Contains(line, "FAILURES") || Contains(line, "ERRORS") || Contains(line, "ERROR")
  }

  /** A line that switches capturing off (checked after the trigger). */
  predicate IsStop(line: string) {
    Contains(Lower(line), "short test summary")
  }

  /** The value of the `capture` flag after the loop has seen line `k`. */
  function Captured(lines: seq<string>, k: nat): bool
    requires k < |lines|
  {
    !IsStop(lines[k]) && (IsTrigger(lines[k]) || (k > 0 && Captured(lines, k - 1)))
  }

  /** Line `k` is captured exactly when some trigger line at or before it is
      followed by no stop line up to and including line `k`. */
  lemma {:induction false} CapturedIffOpenTrigger(lines: seq<string>, k: nat)
    requires k < |lines|
    decreases k
    ensures Captured(lines, k) <==>
      exists j :: 0 <= j <= k && IsTrigger(lines[j]) && forall m :: j <= m <= k ==> !IsStop(lines[m])
  {
    if k > 0 {
      CapturedIffOpenTrigger(lines, k - 1);
      if Captured(lines, k) && !IsTrigger(lines[k]) {
        var j :| 0 <= j <= k - 1 && IsTrigger(lines[j]) && forall m :: j <= m <= k - 1 ==> !IsStop(lines[m]);
        assert forall m :: j <= m <= k ==> !IsStop(lines[m]);
      }
      if !IsStop(lines[k]) && !IsTrigger(lines[k]) && exists j :: 0 <= j <= k && IsTrigger(lines[j]) && forall m :: j <= m <= k ==> !IsStop(lines[m]) {
        var j :| 0 <= j <= k && IsTrigger(lines[j]) && forall m :: j <= m <= k ==> !IsStop(lines[m]);
        assert j < k;
        assert forall m :: j <= m <= k - 1 ==> !IsStop(lines[m]);
      }
    }
  }

  /** `error_lines` after the loop has seen the first `n` lines. */
  function ErrorLines(lines: seq<string>, n: nat): (r: seq<string>)
    requires n <= |lines|
    ensures |r| <= n
  {
    if n == 0 then []
    else ErrorLines(lines, n - 1) + (if Captured(lines, n - 1) then [lines[n - 1]] else [])
  }

  /** The error lines are exactly the captured lines, and the list is empty
      exactly when no line is captured. */
  lemma {:induction false} ErrorLinesCaptured(lines: seq<string>, n: nat)
    requires n <= |lines|
    decreases n
    ensures forall l :: l in ErrorLines(lines, n) ==> exists k :: 0 <= k < n && Captured(lines, k) && l == lines[k]
    ensures forall k :: 0 <= k < n && Captured(lines, k) ==> lines[k] in ErrorLines(lines, n)
    ensures ErrorLines(lines, n) == [] <==> forall k :: 0 <= k < n ==> !Captured(lines, k)
  {
    if n > 0 {
      ErrorLinesCaptured(lines, n - 1);
    }
  }

  /** The loop only appends: the error lines after the first `m` lines are a
      prefix of those after `n >= m`, so the captured lines keep the order of
      the output. */
  lemma {:induction false} ErrorLinesPrefix(lines: seq<string>, m: nat, n: nat)
    requires m <= n <= |lines|
    decreases n - m
    ensures |ErrorLines(lines, m)| <= |ErrorLines(lines, n)|
    ensures ErrorLines(lines, n)[..|ErrorLines(lines, m)|] == ErrorLines(lines, m)
  {
    if m < n {
      ErrorLinesPrefix(lines, m, n - 1);
      var before := ErrorLines(lines, n - 1);
      assert ErrorLines(lines, n)[..|before|] == before;
    }
  }

  /** Python's `lines[-n:]`. */
  function LastLines(lines: seq<string>, n: nat): (r: seq<string>)
    ensures |r| == if |lines| <= n then |lines| else n
    ensures r == lines[|lines| - |r|..]
  {
    if |lines| <= n then lines else lines[|lines| - n..]
  }

  /** `JudgeAgent._extract_error_logs`: the captured lines, or the last 30 lines
      of the output when nothing was captured. */
  function ExtractErrorLogs(output: string): (r: string)
  {
    var lines := Split(output, "\n");
    var kept := ErrorLines(lines, |lines|);
    if kept == [] then Join(LastLines(lines, 30), "\n") else Join(kept, "\n")
  }

  /** Without any trigger line the logs are the last 30 lines of the output,
      which is the whole output when it has at most 30 lines. */
  lemma ErrorLogsWithoutTrigger(output: string)
    requires forall k :: 0 <= k < |Split(output, "\n")| ==> !IsTrigger(Split(output, "\n")[k])
    ensures ExtractErrorLogs(output) == Join(LastLines(Split(output, "\n"), 30), "\n")
    ensures |Split(output, "\n")| <= 30 ==> ExtractErrorLogs(output) == output
  {
    var lines := Split(output, "\n");
    forall k | 0 <= k < |lines| ensures !Captured(lines, k) {
      CapturedIffOpenTrigger(lines, k);
    }
    ErrorLinesCaptured(lines, |lines|);
    JoinSplit(output, "\n");
  }

  /** With a captured line, the logs are exactly the captured lines joined. */
  lemma ErrorLogsWithCapture(output: string, k: nat)
    requires k < |Split(output, "\n")| && Captured(Split(output, "\n"), k)
    ensures ExtractErrorLogs(output) == Join(ErrorLines(Split(output, "\n"), |Split(output, "\n")|), "\n")
  {
    ErrorLinesCaptured(Split(output, "\n"), |Split(output, "\n")|);
  }
}

=== FILE: swarm.dfy ===
/** The orchestration in main.py: the per-file pipeline (audit, initial fix,
    judge, then up to ten repair rounds and the tolerance check), the mission
    tally over all files, and the process exit code. The auditor, the fixer and
    the judge are collaborators whose answers are inputs; pylint scores and the
    console output are not modelled. */
module Swarm {
  import opened Wrappers
  import opened Instructions
  import opened PytestOutput
  import opened Judge
  import opened Text

  /** `MAX_ITERATIONS`. */
  const MaxIterations: nat := 10

  /** The answers of the collaborators for one file: the audit's issues or
      the exception it raised, the exception (if any) raised by the fixer on
      its k-th call (the initial fix is call 0), and the judge's k-th verdict
      (the first judgement is call 0). */
  datatype Env = Env(audit: Result<seq<FixInstruction>, string>,
                     fixRaises: nat -> Option<string>,
                     judgement: nat -> JudgeResult)

  /** One collaborator call, as the pipeline makes it. */
  datatype Step =
    | Audited
    | Fixed(issues: seq<FixInstruction>, raised: bool)
    | Judged(regenerate: bool, result: JudgeResult)

  /** The agent whose exception ends `process_file` early. */
  datatype Stage = AuditStage | FixStage

  const AuditFailedLabel: string := "Audit failed: "
  const FixFailedLabel: string := "Fix failed: "

  /** The dictionary `process_file` returns: the early return after an audit
      or initial-fix exception (with the exception's message), or the full
      result. */
  datatype FileResult =
    | Aborted(file: string, stage: Stage, cause: string)
    | Finished(file: string, success: bool, iterations: nat, testsPassed: nat, testsFailed: nat,
                toleranceApplied: bool)
  {
    predicate Succeeded() { Finished? && success }

    /** The `error` entry of an early return. */
    function Error(): (e: string)
      requires Aborted?
      ensures StartsWith(e, AuditFailedLabel) <==> stage == AuditStage
      ensures StartsWith(e, FixFailedLabel) <==> stage == FixStage
      ensures EndsWith(e, cause)
    {
      var prefix := (match stage case AuditStage => AuditFailedLabel case FixStage => FixFailedLabel);
      assert (prefix + cause)[..|prefix|] == prefix && (prefix + cause)[|prefix|..] == cause;
      assert (prefix + cause)[0] == prefix[0];
      prefix + cause
    }
  }
  /** The `TypeError` raised by subscripting the missing test results. */
  const NoneSubscriptError: string := "'NoneType' object is not subscriptable"
  const FallbackLabel: string := "Test failures detected:\n"
  const FallbackSuggestion: string := "Analyser les erreurs de tests et corriger le code source."

  /** The issues sent to the fixer after a failing verdict: the judge's
      instructions, or one high-severity bug at line 0 wrapping the error logs. */
  function IssuesFor(verdict: JudgeResult): (issues: seq<FixInstruction>)
    ensures issues != []
    ensures verdict.fixInstructions != [] ==> issues == verdict.fixInstructions
    ensures verdict.fixInstructions == [] ==>
      |issues| == 1 && issues[0].severity == High && issues[0].category == Bug && issues[0].line == Some(0)
  {
    if verdict.fixInstructions != [] then verdict.fixInstructions
    else [Plain(High, Bug, Some(0), FallbackLabel + verdict.errorLogs, FallbackSuggestion)]
  }

  /** Number of judge calls in a trace. */
  function JudgeCalls(trace: seq<Step>): nat {
    if |trace| == 0 then 0
    else JudgeCalls(trace[..|trace| - 1]) + (if trace[|trace| - 1].Judged? then 1 else 0)
  }

  /** Number of fixer calls in a trace. */
  function FixCalls(trace: seq<Step>): nat {
    if |trace| == 0 then 0
    else FixCalls(trace[..|trace| - 1]) + (if trace[|trace| - 1].Fixed? then 1 else 0)
  }

  /** The verdict of the last judge call of a trace, if any. */
  function LastVerdict(trace: seq<Step>): Option<JudgeResult> {
    if |trace| == 0 then None
    else if trace[|trace| - 1].Judged? then Some(trace[|trace| - 1].result)
    else LastVerdict(trace[..|trace| - 1])
  }

  /** Each call's answer is the collaborator's answer to that call. */
  predicate FromEnv(trace: seq<Step>, env: Env) {
    |trace| == 0 ||
    (FromEnv(trace[..|trace| - 1], env) &&
     match trace[|trace| - 1]
     case Audited => true
     case Fixed(_, raised) => raised == env.fixRaises(FixCalls(trace[..|trace| - 1])).Some?
     case Judged(_, result) => result == env.judgement(JudgeCalls(trace[..|trace| - 1])))
  }

  /** A trace that ends where the repair loop may test its condition: after a
      judgement, or after a fix that raised (`continue`). After a fix that did
      not raise, the judge always runs again. */
  predicate Settled(trace: seq<Step>) {
    |trace| > 0 && (trace[|trace| - 1].Judged? || (trace[|trace| - 1].Fixed? && trace[|trace| - 1].raised))
  }

  /** A repair step that may follow `before`: a new round's fix of the issues
      of the last verdict, when `before` is settled and that verdict failed and
      carries test results (the loop stops at a success, and raises on missing
      results), or a re-judgement without regenerating tests right after a fix
      that did not raise. */
  predicate RepairFollows(before: seq<Step>, step: Step) {
    match step
    case Audited => false
    case Fixed(issues, _) =>
      && Settled(before)
      && LastVerdict(before).Some? && !LastVerdict(before).value.success
      && LastVerdict(before).value.testResults.Some?
      && issues == IssuesFor(LastVerdict(before).value)
    case Judged(regenerate, _) =>
      !regenerate && |before| > 0 && before[|before| - 1].Fixed? && !before[|before| - 1].raised
  }

  /** The trace of a file that reached the judge: audit, initial fix of the
      audit's issues, judgement with test generation, then repair steps. */
  predicate PipelineTrace(trace: seq<Step>, auditIssues: seq<FixInstruction>) {
    if |trace| <= 3 then
      |trace| == 3 && trace[0] == Audited && trace[1] == Fixed(auditIssues, false)
      && trace[2].Judged? && trace[2].regenerate
    else
      PipelineTrace(trace[..|trace| - 1], auditIssues) && RepairFollows(trace[..|trace| - 1], trace[|trace| - 1])
  }

  /** The outcome of the tolerance check, given the last verdict. */
  predicate ToleranceAccepts(verdict: JudgeResult) {
    !verdict.success && verdict.testResults.Some?
    && EvaluateWithTolerance(Some(verdict.testResults.value.counts)).acceptable
  }

  /** What `process_file` does with `file` given the collaborators' answers
      `env`: `trace` is the calls it made, and `outcome` its result, or the
      exception escaping from it. An audit or initial-fix exception returns at
      once; otherwise the pipeline runs until it is settled (every fix that did
      not raise is judged again), and its result is built from the last
      verdict, after as many rounds as fixer calls past the first, at most
      `MaxIterations`, ending on success or at the limit; the only exception
      that escapes is the `TypeError` of a failed verdict without test results.
      `ProcessedIsFunctional` shows that this admits exactly one trace and one
      outcome. */
  predicate Processed(file: string, env: Env, outcome: Result<FileResult, string>, trace: seq<Step>) {
    && FromEnv(trace, env)
    && (env.audit.Failure? ==>
          outcome == Success(Aborted(file, AuditStage, env.audit.error)) && trace == [Audited])
    && (env.audit.Success? && env.fixRaises(0).Some? ==>
          && outcome == Success(Aborted(file, FixStage, env.fixRaises(0).value))
          && trace == [Audited, Fixed(env.audit.value, true)])
    && (env.audit.Success? && env.fixRaises(0).None? ==>
          && PipelineTrace(trace, env.audit.value) && Settled(trace) && LastVerdict(trace).Some?
          && (outcome.Success? ==> outcome.value.Finished?))
    && (outcome.Success? && outcome.value.Finished? ==>
          var r := outcome.value;
          var verdict := LastVerdict(trace).value;
          && LastVerdict(trace).Some?
          && r.file == file && r == Conclude(file, verdict, r.iterations)
          && r.iterations + 1 == FixCalls(trace) && r.iterations <= MaxIterations
          && (verdict.success || r.iterations == MaxIterations)
          && (env.judgement(0).success ==> r.iterations == 0))
    && (outcome.Failure? ==>
          && outcome.error == NoneSubscriptError
          && LastVerdict(trace).Some? && !LastVerdict(trace).value.success
          && LastVerdict(trace).value.testResults.None?
          && FixCalls(trace) <= MaxIterations)
  }

  /** `process_file`. The result is `Failure` when an exception escapes: the
      loop subscripts the test results of a failed verdict without checking
      that there are any. */
  method ProcessFile(file: string, env: Env) returns (outcome: Result<FileResult, string>, trace: seq<Step>)
    ensures Processed(file, env, outcome, trace)
  {
    Append([], Audited, env, []);
    trace := [Audited];
    if env.audit.Failure? {
      return Success(Aborted(file, AuditStage, env.audit.error)), trace;
    }
    var auditIssues := env.audit.value;
    var raised := env.fixRaises(0);
    Append(trace, Fixed(auditIssues, raised.Some?), env, auditIssues);
    trace := trace + [Fixed(auditIssues, raised.Some?)];
    if raised.Some? {
      return Success(Aborted(file, FixStage, raised.value)), trace;
    }
    outcome, trace := Judgements(file, env, auditIssues, trace);
  }

  /** `process_file` from the first judgement on, after an audit and an
      initial fix that did not raise. */
  method Judgements(file: string, env: Env, auditIssues: seq<FixInstruction>, start: seq<Step>)
    returns (outcome: Result<FileResult, string>, trace: seq<Step>)
    requires env.audit == Success(auditIssues) && env.fixRaises(0).None?
    requires start == [Audited, Fixed(auditIssues, false)] && FromEnv(start, env)
    ensures FromEnv(trace, env) && PipelineTrace(trace, auditIssues) && Settled(trace)
    ensures LastVerdict(trace).Some?
    ensures outcome.Success? ==> outcome.value.Finished?
    ensures outcome.Success? && outcome.value.Finished? ==>
      var r := outcome.value;
      var verdict := LastVerdict(trace).value;
      && r.file == file && r == Conclude(file, verdict, r.iterations)
      && r.iterations + 1 == FixCalls(trace) && r.iterations <= MaxIterations
      && (verdict.success || r.iterations == MaxIterations)
      && (env.judgement(0).success ==> r.iterations == 0)
    ensures outcome.Failure? ==>
      && outcome.error == NoneSubscriptError
      && LastVerdict(trace).Some? && !LastVerdict(trace).value.success
      && LastVerdict(trace).value.testResults.None?
      && FixCalls(trace) <= MaxIterations
  {
    Append([], Audited, env, auditIssues);
    Append([Audited], Fixed(auditIssues, false), env, auditIssues);
    assert [Audited] + [Fixed(auditIssues, false)] == start;
    trace := start;
    var verdict := env.judgement(0);
    Append(trace, Judged(true, verdict), env, auditIssues);
    trace := trace + [Judged(true, verdict)];
    var crashed, last, iterations;
    crashed, trace, last, iterations := Repair(env, auditIssues, trace);
    if crashed {
      return Failure(NoneSubscriptError), trace;
    }
    outcome := Success(Conclude(file, last, iterations));
  }

  /** The repair loop of `process_file`, from the first judgement on: it
      stops at a successful verdict or after `MaxIterations` rounds, and
      `crashed` is the `TypeError` of a failed verdict without test results. */
  method Repair(env: Env, auditIssues: seq<FixInstruction>, start: seq<Step>)
    returns (crashed: bool, trace: seq<Step>, verdict: JudgeResult, iterations: nat)
    requires FromEnv(start, env) && PipelineTrace(start, auditIssues)
    requires LastVerdict(start) == Some(env.judgement(0)) && FixCalls(start) == 1 && Settled(start)
    ensures FromEnv(trace, env) && PipelineTrace(trace, auditIssues) && Settled(trace)
    ensures LastVerdict(trace) == Some(verdict)
    ensures FixCalls(trace) == iterations + 1 && iterations <= MaxIterations
    ensures crashed ==> !verdict.success && verdict.testResults.None? && iterations < MaxIterations
    ensures !crashed ==> verdict.success || iterations == MaxIterations
    ensures env.judgement(0).success ==> !crashed && iterations == 0
  {
    trace, verdict, iterations := start, env.judgement(0), 0;
    while !verdict.success && iterations < MaxIterations
      invariant iterations <= MaxIterations
      invariant FromEnv(trace, env) && PipelineTrace(trace, auditIssues) && Settled(trace)
      invariant LastVerdict(trace) == Some(verdict)
      invariant FixCalls(trace) == iterations + 1
      invariant iterations == 0 ==> verdict == env.judgement(0)
      invariant env.judgement(0).success ==> iterations == 0
      decreases MaxIterations - iterations
    {
      if verdict.testResults.None? {
        return true, trace, verdict, iterations;
      }
      iterations := iterations + 1;
      trace, verdict := Round(env, auditIssues, trace, verdict);
    }
    crashed := false;
  }

  /** One round of the repair loop after a failed verdict: a fix of the
      verdict's issues, then, unless the fixer raised, a judgement without
      regenerating the tests. */
  method Round(env: Env, auditIssues: seq<FixInstruction>, before: seq<Step>, verdict: JudgeResult)
    returns (trace: seq<Step>, next: JudgeResult)
    requires FromEnv(before, env) && PipelineTrace(before, auditIssues)
    requires LastVerdict(before) == Some(verdict) && !verdict.success && verdict.testResults.Some?
    requires Settled(before)
    ensures FromEnv(trace, env) && PipelineTrace(trace, auditIssues) && Settled(trace)
    ensures LastVerdict(trace) == Some(next)
    ensures FixCalls(trace) == FixCalls(before) + 1
    ensures |trace| > |before| && trace[..|before|] == before
    ensures trace[|before|] == Fixed(IssuesFor(verdict), env.fixRaises(FixCalls(before)).Some?)
    ensures env.fixRaises(FixCalls(before)).Some? ==> |trace| == |before| + 1 && next == verdict
    ensures env.fixRaises(FixCalls(before)).None? ==>
      |trace| == |before| + 2 && next == env.judgement(JudgeCalls(before))
  {
    var issues := IssuesFor(verdict);
    var raised := env.fixRaises(FixCalls(before));
    Append(before, Fixed(issues, raised.Some?), env, auditIssues);
    trace := before + [Fixed(issues, raised.Some?)];
    if raised.Some? {
      return trace, verdict;
    }
    next := env.judgement(JudgeCalls(trace));
    Append(trace, Judged(false, next), env, auditIssues);
    trace := trace + [Judged(false, next)];
  }

  /** The result after the loop: the tolerance check rescues a failed verdict
      that carries test results with a pass rate of at least 90%. */
  function Conclude(file: string, verdict: JudgeResult, iterations: nat): (r: FileResult)
    ensures r.Finished? && r.file == file && r.iterations == iterations
    ensures r.toleranceApplied == ToleranceAccepts(verdict)
    ensures r.success == (verdict.success || ToleranceAccepts(verdict))
    ensures r.testsPassed == (if verdict.testResults.Some? then verdict.testResults.value.counts.passed else 0)
    ensures r.testsFailed == (if verdict.testResults.Some? then verdict.testResults.value.counts.failed else 0)
  {
    var tolerated := !verdict.success && verdict.testResults.Some?
      && EvaluateWithTolerance(Some(verdict.testResults.value.counts)).acceptable;
    var counts := if verdict.testResults.Some? then verdict.testResults.value.counts else Zero;
    Finished(file, verdict.success || tolerated, iterations, counts.passed, counts.failed, tolerated)
  }

  /** What appending one step does to the functions over traces. */
  lemma Append(trace: seq<Step>, step: Step, env: Env, auditIssues: seq<FixInstruction>)
    ensures JudgeCalls(trace + [step]) == JudgeCalls(trace) + (if step.Judged? then 1 else 0)
    ensures FixCalls(trace + [step]) == FixCalls(trace) + (if step.Fixed? then 1 else 0)
    ensures LastVerdict(trace + [step]) == (if step.Judged? then Some(step.result) else LastVerdict(trace))
    ensures FromEnv(trace + [step], env) <==>
      (FromEnv(trace, env) &&
       match step
       case Audited => true
       case Fixed(_, raised) => raised == env.fixRaises(FixCalls(trace)).Some?
       case Judged(_, result) => result == env.judgement(JudgeCalls(trace)))
    ensures |trace| >= 3 ==>
      (PipelineTrace(trace + [step], auditIssues) <==>
       PipelineTrace(trace, auditIssues) && RepairFollows(trace, step))
    ensures |trace| == 2 ==>
      (PipelineTrace(trace + [step], auditIssues) <==>
       trace[0] == Audited && trace[1] == Fixed(auditIssues, false) && step.Judged? && step.regenerate)
  {
    assert (trace + [step])[..|trace|] == trace;
  }

  /** In a pipeline trace, tests are generated exactly once, by the first
      judgement, and every later judgement reuses them. */
  lemma {:induction false} GeneratesOnce(trace: seq<Step>, auditIssues: seq<FixInstruction>)
    requires PipelineTrace(trace, auditIssues)
    decreases |trace|
    ensures trace[2].Judged? && trace[2].regenerate
    ensures forall k :: 0 <= k < |trace| && trace[k].Judged? ==> (trace[k].regenerate <==> k == 2)
  {
    if |trace| > 3 {
      var before := trace[..|trace| - 1];
      GeneratesOnce(before, auditIssues);
      assert forall k :: 0 <= k < |before| ==> trace[k] == before[k];
    }
  }

  /** In a pipeline trace, every verdict but the last failed and carried test
      results: the loop stops at the first successful verdict and at the first
      failed one without results. */
  lemma {:induction false} StopsAtFirstSuccess(trace: seq<Step>, auditIssues: seq<FixInstruction>)
    requires PipelineTrace(trace, auditIssues)
    decreases |trace|
    ensures forall k :: 0 <= k < |trace| - 1 && trace[k].Judged? ==>
      !trace[k].result.success && trace[k].result.testResults.Some?
  {
    if |trace| > 3 {
      var before := trace[..|trace| - 1];
      StopsAtFirstSuccess(before, auditIssues);
      assert forall k :: 0 <= k < |before| ==> trace[k] == before[k];
      var last := before[|before| - 1];
      if last.Judged? {
        assert LastVerdict(before) == Some(last.result);
      }
    }
  }

  /** In a pipeline trace, every fixer call in the repair loop receives a
      non-empty list of issues. */
  lemma {:induction false} RepairIssuesNonEmpty(trace: seq<Step>, auditIssues: seq<FixInstruction>)
    requires PipelineTrace(trace, auditIssues)
    decreases |trace|
    ensures forall k :: 3 <= k < |trace| && trace[k].Fixed? ==> trace[k].issues != []
  {
    if |trace| > 3 {
      var before := trace[..|trace| - 1];
      RepairIssuesNonEmpty(before, auditIssues);
      assert forall k :: 0 <= k < |before| ==> trace[k] == before[k];
    }
  }

  /** In a pipeline trace, a fixer call that raised is never followed directly
      by a judgement: the round is skipped. */
  lemma {:induction false} RaisedFixSkipsJudge(trace: seq<Step>, auditIssues: seq<FixInstruction>)
    requires PipelineTrace(trace, auditIssues)
    decreases |trace|
    ensures forall k :: 0 <= k < |trace| - 1 && trace[k].Fixed? && trace[k].raised ==> !trace[k + 1].Judged?
  {
    if |trace| > 3 {
      var before := trace[..|trace| - 1];
      RaisedFixSkipsJudge(before, auditIssues);
      assert forall k :: 0 <= k < |before| ==> trace[k] == before[k];
    }
  }

  /** Prefixes of a trace whose answers come from `env` also take them from `env`. */
  lemma {:induction false} FromEnvPrefix(trace: seq<Step>, env: Env, k: nat)
    requires FromEnv(trace, env) && k <= |trace|
    decreases |trace|
    ensures FromEnv(trace[..k], env)
  {
    if k < |trace| {
      FromEnvPrefix(trace[..|trace| - 1], env, k);
      assert trace[..|trace| - 1][..k] == trace[..k];
    } else {
      assert trace[..k] == trace;
    }
  }

  /** Prefixes of a pipeline trace that reach the first judgement are
      pipeline traces. */
  lemma {:induction false} PipelinePrefix(trace: seq<Step>, auditIssues: seq<FixInstruction>, k: nat)
    requires PipelineTrace(trace, auditIssues) && 3 <= k <= |trace|
    decreases |trace|
    ensures PipelineTrace(trace[..k], auditIssues)
  {
    if k < |trace| {
      PipelinePrefix(trace[..|trace| - 1], auditIssues, k);
      assert trace[..|trace| - 1][..k] == trace[..k];
    } else {
      assert trace[..k] == trace;
    }
  }

  /** A prefix makes no more fixer calls than the whole trace. */
  lemma {:induction false} FixCallsPrefix(trace: seq<Step>, k: nat)
    requires k <= |trace|
    decreases |trace|
    ensures FixCalls(trace[..k]) <= FixCalls(trace)
  {
    if k < |trace| {
      FixCallsPrefix(trace[..|trace| - 1], k);
      assert trace[..|trace| - 1][..k] == trace[..k];
    } else {
      assert trace[..k] == trace;
    }
  }

  /** The next repair step is determined by the trace so far and the
      collaborators' answers. */
  lemma NextStepDetermined(before: seq<Step>, s1: Step, s2: Step, env: Env)
    requires RepairFollows(before, s1) && RepairFollows(before, s2)
    requires FromEnv(before + [s1], env) && FromEnv(before + [s2], env)
    ensures s1 == s2
  {
    Append(before, s1, env, []);
    Append(before, s2, env, []);
  }

  /** Every pipeline trace starts with the same three calls. */
  lemma PipelineStart(t: seq<Step>, env: Env, auditIssues: seq<FixInstruction>)
    requires FromEnv(t, env) && PipelineTrace(t, auditIssues) && |t| == 3
    ensures t == [Audited, Fixed(auditIssues, false), Judged(true, env.judgement(0))]
  {
    var pre := [Audited, Fixed(auditIssues, false)];
    assert t[..2] == pre;
    assert pre[..1] == [Audited] && [Audited][..0] == [];
    assert JudgeCalls(pre) == 0;
  }

  /** Two pipeline traces with answers from the same `env` agree: the shorter
      one is a prefix of the longer. */
  lemma {:induction false} TracesAgree(t1: seq<Step>, t2: seq<Step>, env: Env, auditIssues: seq<FixInstruction>)
    requires FromEnv(t1, env) && PipelineTrace(t1, auditIssues)
    requires FromEnv(t2, env) && PipelineTrace(t2, auditIssues)
    requires |t1| <= |t2|
    decreases |t1|
    ensures t2[..|t1|] == t1
  {
    var n := |t1|;
    PipelinePrefix(t2, auditIssues, n);
    FromEnvPrefix(t2, env, n);
    var q := t2[..n];
    if n == 3 {
      PipelineStart(t1, env, auditIssues);
      PipelineStart(q, env, auditIssues);
    } else {
      var p1 := t1[..n - 1];
      TracesAgree(p1, t2, env, auditIssues);
      assert q[..n - 1] == t2[..n - 1] == p1;
      assert t1 == p1 + [t1[n - 1]] && q == p1 + [q[n - 1]];
      NextStepDetermined(p1, t1[n - 1], q[n - 1], env);
    }
  }

  /** A settled pipeline trace is extended only by a new round: its last
      verdict failed with test results, and the extension makes another
      fixer call. */
  lemma ExtensionIsARound(t: seq<Step>, longer: seq<Step>, auditIssues: seq<FixInstruction>)
    requires PipelineTrace(longer, auditIssues) && 3 <= |t| < |longer| && longer[..|t|] == t && Settled(t)
    ensures LastVerdict(t).Some? && !LastVerdict(t).value.success && LastVerdict(t).value.testResults.Some?
    ensures FixCalls(longer) > FixCalls(t)
  {
    StepFollows(longer, auditIssues, |t|);
    SettledIsFollowedByFix(t, longer[|t|]);
    FixCallsGrow(longer, t);
  }

  /** A fixer call after a prefix adds to the prefix's fixer calls. */
  lemma FixCallsGrow(longer: seq<Step>, t: seq<Step>)
    requires |t| < |longer| && longer[..|t|] == t && longer[|t|].Fixed?
    ensures FixCalls(longer) > FixCalls(t)
  {
    FixCallsPrefix(longer, |t| + 1);
    var q := longer[..|t| + 1];
    assert q[..|q| - 1] == t;
  }

  /** Every step of a pipeline trace past the first judgement is a repair
      step. */
  lemma StepFollows(trace: seq<Step>, auditIssues: seq<FixInstruction>, k: nat)
    requires PipelineTrace(trace, auditIssues) && 3 <= k < |trace|
    ensures RepairFollows(trace[..k], trace[k])
  {
    PipelinePrefix(trace, auditIssues, k + 1);
    var q := trace[..k + 1];
    assert q[..k] == trace[..k] && q[k] == trace[k];
  }

  /** After a settled trace, only a new round's fix may come, and only after a
      failed verdict with test results. */
  lemma SettledIsFollowedByFix(before: seq<Step>, step: Step)
    requires Settled(before) && RepairFollows(before, step)
    ensures step.Fixed?
    ensures LastVerdict(before).Some? && !LastVerdict(before).value.success
    ensures LastVerdict(before).value.testResults.Some?
  {
  }

  /** `process_file` is a function of the file and the collaborators'
      answers: its contract admits a single trace and a single outcome. */
  lemma ProcessedIsFunctional(file: string, env: Env, o1: Result<FileResult, string>, t1: seq<Step>,
                              o2: Result<FileResult, string>, t2: seq<Step>)
    requires Processed(file, env, o1, t1) && Processed(file, env, o2, t2)
    ensures t1 == t2 && o1 == o2
  {
    if env.audit.Success? && env.fixRaises(0).None? {
      var a := env.audit.value;
      if |t1| <= |t2| {
        TracesAgree(t1, t2, env, a);
        if |t1| < |t2| {
          ExtensionIsARound(t1, t2, a);
        }
      } else {
        TracesAgree(t2, t1, env, a);
        ExtensionIsARound(t2, t1, a);
      }
    }
  }

  // ---------------------------------------------------------------------------
  // run_swarm and main

  /** The dictionary `run_swarm` returns: the early returns after a failed
      agent initialisation or when no Python file was found, or the tally. */
  datatype Mission =
    | InitFailed(error: string)
    | NoFiles
    | Tally(processed: nat, succeeded: nat, failed: nat, details: seq<FileResult>)

  /** Number of successful file results. */
  function SuccessCount(details: seq<FileResult>): (n: nat)
    ensures n <= |details|
  {
    if |details| == 0 then 0
    else SuccessCount(details[..|details| - 1]) + (if details[|details| - 1].Succeeded() then 1 else 0)
  }

  /** `run_swarm`: `init` is the outcome of creating the three agents, `files`
      the Python files found, and `envs(i)` the collaborators' answers for the
      i-th file. `outcomes[i]` and `traces[i]` are what `process_file` did with
      the i-th file; the files are processed in order until one raises, and a
      `Failure` mission is that exception escaping. */
  method RunSwarm(init: Result<(), string>, files: seq<string>, envs: nat -> Env)
    returns (mission: Result<Mission, string>, outcomes: seq<Result<FileResult, string>>, traces: seq<seq<Step>>)
    ensures init.Failure? ==> mission == Success(InitFailed(init.error)) && outcomes == []
    ensures init.Success? && files == [] ==> mission == Success(NoFiles) && outcomes == []
    ensures |traces| == |outcomes| <= |files|
    ensures forall i :: 0 <= i < |outcomes| ==> Processed(files[i], envs(i), outcomes[i], traces[i])
    ensures forall i :: 0 <= i < |outcomes| - 1 ==> outcomes[i].Success?
    ensures mission.Failure? <==> outcomes != [] && outcomes[|outcomes| - 1].Failure?
    ensures mission.Failure? ==>
      init.Success? && mission.error == outcomes[|outcomes| - 1].error && mission.error == NoneSubscriptError
    ensures mission.Success? && mission.value.Tally? ==>
      var t := mission.value;
      && init.Success? && files != [] && |outcomes| == |files|
      && t.processed == |t.details| == |files|
      && (forall i :: 0 <= i < |files| ==> outcomes[i] == Success(t.details[i]))
      && t.processed == t.succeeded + t.failed
      && t.succeeded == SuccessCount(t.details)
  {
    if init.Failure? {
      return Success(InitFailed(init.error)), [], [];
    }
    if files == [] {
      return Success(NoFiles), [], [];
    }
    var details;
    outcomes, traces, details := ProcessAll(files, envs);
    if outcomes[|outcomes| - 1].Failure? {
      return Failure(outcomes[|outcomes| - 1].error), outcomes, traces;
    }
    var succeeded := SuccessCount(details);
    return Success(Tally(|details|, succeeded, |details| - succeeded, details)), outcomes, traces;
  }

  /** The loop of `run_swarm` over non-empty `files`: it processes them in
      order and stops after the first that raises; `details` are the results
      of the files that returned. */
  method ProcessAll(files: seq<string>, envs: nat -> Env)
    returns (outcomes: seq<Result<FileResult, string>>, traces: seq<seq<Step>>, details: seq<FileResult>)
    requires files != []
    ensures 0 < |traces| == |outcomes| <= |files|
    ensures forall i :: 0 <= i < |outcomes| ==> Processed(files[i], envs(i), outcomes[i], traces[i])
    ensures forall i :: 0 <= i < |outcomes| - 1 ==> outcomes[i].Success?
    ensures outcomes[|outcomes| - 1].Success? ==> |outcomes| == |files|
    ensures |details| == |outcomes| || |details| == |outcomes| - 1
    ensures forall i :: 0 <= i < |details| ==> outcomes[i] == Success(details[i])
    ensures outcomes[|outcomes| - 1].Success? <==> |details| == |outcomes|
  {
    outcomes, traces, details := [], [], [];
    var i := 0;
    while i < |files|
      invariant i <= |files|
      invariant |details| == |outcomes| == |traces| == i
      invariant forall j :: 0 <= j < i ==> outcomes[j] == Success(details[j])
      invariant forall j :: 0 <= j < i ==> Processed(files[j], envs(j), outcomes[j], traces[j])
    {
      var outcome, trace := ProcessFile(files[i], envs(i));
      outcomes, traces := outcomes + [outcome], traces + [trace];
      if outcome.Failure? {
        return;
      }
      details := details + [outcome.value];
      i := i + 1;
    }
  }

  /** The exit status of `main`: 1 for a missing directory or an escaping
      exception, otherwise 0 exactly when no file failed (a mission without a
      tally has no failures). */
  function ExitCode(directoryExists: bool, mission: Result<Mission, string>): (code: int)
    ensures code == 0 || code == 1
    ensures !directoryExists || mission.Failure? ==> code == 1
    ensures directoryExists && mission.Success? && !mission.value.Tally? ==> code == 0
    ensures directoryExists && mission.Success? && mission.value.Tally? ==>
      (code == 0 <==> mission.value.failed == 0)
  {
    if !directoryExists then 1
    else match mission
      case Failure(_) => 1
      case Success(Tally(_, _, failed, _)) => if failed == 0 then 0 else 1
      case Success(_) => 0
  }

  /** With a tally, the exit status is 0 exactly when every processed file
      succeeded; an initialisation failure or an empty directory exits 0. */
  lemma ExitCodeSpec(directoryExists: bool, mission: Result<Mission, string>)
    requires mission.Success? && mission.value.Tally?
    requires mission.value.processed == mission.value.succeeded + mission.value.failed
    requires mission.value.processed == |mission.value.details|
    requires mission.value.succeeded == SuccessCount(mission.value.details)
    ensures ExitCode(directoryExists, mission) == 0 <==>
      directoryExists && forall i :: 0 <= i < |mission.value.details| ==> mission.value.details[i].Succeeded()
  {
    var d := mission.value.details;
    if mission.value.failed == 0 {
      AllSucceeded(d);
    } else if forall i :: 0 <= i < |d| ==> d[i].Succeeded() {
      AllSucceeded(d);
    }
  }

  /** The success count is the length exactly when every result succeeded. */
  lemma {:induction false} AllSucceeded(details: seq<FileResult>)
    decreases |details|
    ensures SuccessCount(details) == |details| <==> forall i :: 0 <= i < |details| ==> details[i].Succeeded()
  {
    if |details| > 0 {
      var before := details[..|details| - 1];
      AllSucceeded(before);
      assert forall i :: 0 <= i < |before| ==> details[i] == before[i];
    }
  }
}

=== FILE: text.dfy ===
/** The fragment of Python's `str` API that the repair pipeline relies on:
    substring search (`in`, `find`, `rfind`), `split`/`join`, `strip`, `lower`,
    `startswith`/`endswith`, slicing with a cap (`s[:n]`) and the decimal-digit
    runs that `int()` reads. */
module Text {
  import opened Wrappers

  /** `p` occurs in `s` starting at index `i`. */
  predicate OccursAt(s: string, p: string, i: int) {
    0 <= i && i + |p| <= |s| && s[i..i + |p|] == p
  }

  /** Python's `p in s`. */
  predicate Contains(s: string, p: string) {
    exists i :: 0 <= i <= |s| - |p| && OccursAt(s, p, i)
  }

  /** Python's `s.startswith(p)`. */
  predicate StartsWith(s: string, p: string) {
    |p| <= |s| && s[..|p|] == p
  }

  /** Python's `s.endswith(p)`. */
  predicate EndsWith(s: string, p: string) {
    |p| <= |s| && s[|s| - |p|..] == p
  }

  /** First occurrence of `p` in `s` at an index `>= k`, or -1. */
  function IndexFrom(s: string, p: string, k: nat): (r: int)
    decreases |s| - k
    ensures r == -1 || (k <= r && OccursAt(s, p, r))
    ensures forall j :: k <= j && (r == -1 || j < r) ==> !OccursAt(s, p, j)
  {
    if k + |p| > |s| then -1
    else if s[k..k + |p|] == p then k
    else IndexFrom(s, p, k + 1)
  }

  /** Python's `s.find(p)`: the first index at which `p` occurs, or -1. */
  function IndexOf(s: string, p: string): (r: int)
    ensures r >= 0 <==> Contains(s, p)
    ensures r >= 0 ==> OccursAt(s, p, r)
    ensures forall j :: 0 <= j && (r == -1 || j < r) ==> !OccursAt(s, p, j)
  {
    IndexFrom(s, p, 0)
  }

  /** Last occurrence of `p` in `s` at an index `< k`, or -1. */
  function LastBefore(s: string, p: string, k: nat): (r: int)
    ensures r == -1 || (r < k && OccursAt(s, p, r))
    ensures forall j :: r < j < k ==> !OccursAt(s, p, j)
  {
    if k == 0 then -1
    else if OccursAt(s, p, k - 1) then k - 1
    else LastBefore(s, p, k - 1)
  }

  /** Python's `s.rfind(p)`: the last index at which `p` occurs, or -1. */
  function LastIndexOf(s: string, p: string): (r: int)
    ensures r >= 0 <==> Contains(s, p)
    ensures r >= 0 ==> OccursAt(s, p, r)
    ensures forall j :: r < j ==> !OccursAt(s, p, j)
  {
    LastBefore(s, p, |s| + 1)
  }

  /** A one-character pattern occurs exactly where that character is. */
  lemma OccursChar(s: string, c: char, i: int)
    requires OccursAt(s, [c], i)
    ensures 0 <= i < |s| && s[i] == c
  {
    assert s[i..i + 1] == [s[i]];
  }

  /** A character that occurs nowhere before `i` is not in `s[..i]`. */
  lemma CharAbsentBefore(s: string, c: char, i: nat)
    requires i <= |s|
    requires forall j :: 0 <= j < i ==> !OccursAt(s, [c], j)
    ensures c !in s[..i]
  {
    forall j | 0 <= j < i
      ensures s[j] != c
    {
      assert !OccursAt(s, [c], j);
      assert s[j..j + 1] == [s[j]];
    }
  }

  /** A character that occurs nowhere from `i` on is not in `s[i..]`. */
  lemma CharAbsentAfter(s: string, c: char, i: nat)
    requires i <= |s|
    requires forall j :: i <= j ==> !OccursAt(s, [c], j)
    ensures c !in s[i..]
  {
    forall j | i <= j < |s|
      ensures s[j] != c
    {
      assert !OccursAt(s, [c], j);
      assert s[j..j + 1] == [s[j]];
    }
  }

  /** The text before the first `sep`, or all of `s` when `sep` does not occur. */
  function Before(s: string, sep: string): (r: string)
    requires sep != ""
    ensures !Contains(r, sep)
    ensures StartsWith(s, r)
  {
    var i := IndexOf(s, sep);
    if i < 0 then s
    else
      PrefixBeforeFirst(s, sep, i);
      s[..i]
  }

  /** The text before the first occurrence of `sep` does not contain `sep`. */
  lemma PrefixBeforeFirst(s: string, sep: string, i: nat)
    requires sep != "" && i <= |s|
    requires forall j :: 0 <= j < i ==> !OccursAt(s, sep, j)
    ensures !Contains(s[..i], sep)
  {
    var r := s[..i];
    forall j | 0 <= j <= |r| - |sep|
      ensures OccursAt(r, sep, j) ==> OccursAt(s, sep, j)
    {
      assert r[j..j + |sep|] == s[j..j + |sep|];
    }
  }

  /** The text after the first `sep`. */
  function After(s: string, sep: string): (r: string)
    requires sep != "" && Contains(s, sep)
    ensures |r| + |sep| <= |s| && EndsWith(s, r)
  {
    s[IndexOf(s, sep) + |sep|..]
  }

  /** Python's `s.split(sep)` for a non-empty separator. */
  function Split(s: string, sep: string): (r: seq<string>)
    requires sep != ""
    decreases |s|
    ensures |r| >= 1 && r[0] == Before(s, sep)
    ensures !Contains(s, sep) ==> r == [s]
    ensures Contains(s, sep) ==> |r| >= 2 && r[1] == Before(After(s, sep), sep)
    ensures forall k :: 0 <= k < |r| ==> !Contains(r[k], sep)
  {
    var i := IndexOf(s, sep);
    if i < 0 then [s] else [s[..i]] + Split(s[i + |sep|..], sep)
  }

  /** Python's `sep.join(parts)`. */
  function Join(parts: seq<string>, sep: string): string
    decreases |parts|
  {
    if |parts| == 0 then ""
    else if |parts| == 1 then parts[0]
    else parts[0] + sep + Join(parts[1..], sep)
  }

  /** Joining what `Split` produced gives back the original text. */
  lemma {:induction false} JoinSplit(s: string, sep: string)
    requires sep != ""
    decreases |s|
    ensures Join(Split(s, sep), sep) == s
  {
    var i := IndexOf(s, sep);
    if i >= 0 {
      var rest := s[i + |sep|..];
      JoinSplit(rest, sep);
      SplitAtFirst(s, sep);
      JoinCons(s[..i], Split(rest, sep), sep);
    }
  }

  /** Where `sep` occurs first, `s` is the text before it, `sep`, and the rest,
      and `Split` continues on the rest. */
  lemma SplitAtFirst(s: string, sep: string)
    requires sep != "" && Contains(s, sep)
    ensures var i := IndexOf(s, sep);
      && s == s[..i] + sep + s[i + |sep|..]
      && Split(s, sep) == [s[..i]] + Split(s[i + |sep|..], sep)
  {
    var i := IndexOf(s, sep);
    assert s[i..i + |sep|] == sep;
    assert s == s[..i] + s[i..i + |sep|] + s[i + |sep|..];
  }

  /** Joining a part in front of a non-empty list puts a separator between. */
  lemma JoinCons(head: string, tail: seq<string>, sep: string)
    requires |tail| >= 1
    ensures Join([head] + tail, sep) == head + sep + Join(tail, sep)
  {
    assert ([head] + tail)[1..] == tail;
  }

  /** A joined text starts with its first part. */
  lemma {:induction false} JoinStartsWithHead(parts: seq<string>, sep: string)
    requires |parts| >= 1
    ensures StartsWith(Join(parts, sep), parts[0])
  {
  }

  /** A joined text ends with its last part. */
  lemma {:induction false} JoinEndsWithLast(parts: seq<string>, sep: string)
    requires |parts| >= 1
    decreases |parts|
    ensures EndsWith(Join(parts, sep), parts[|parts| - 1])
  {
    if |parts| > 1 {
      JoinEndsWithLast(parts[1..], sep);
      var j := Join(parts[1..], sep);
      var last := parts[|parts| - 1];
      assert parts[1..][|parts[1..]| - 1] == last;
      assert (parts[0] + sep + j)[|parts[0] + sep + j| - |last|..] == j[|j| - |last|..];
    }
  }

  /** The middle of a concatenation occurs in it. */
  lemma ContainsMiddle(a: string, b: string, c: string)
    ensures Contains(a + b + c, b)
  {
    assert (a + b + c)[|a|..|a| + |b|] == b;
    assert OccursAt(a + b + c, b, |a|);
  }

  /** A text found in one side of a concatenation is found in the whole. */
  lemma ContainsInConcat(a: string, b: string, p: string)
    requires Contains(a, p) || Contains(b, p)
    ensures Contains(a + b, p)
  {
    if Contains(a, p) {
      assert (a + b)[0..|a|] == a;
      ContainsInFactor(a + b, 0, a, p);
    } else {
      assert (a + b)[|a|..|a| + |b|] == b;
      ContainsInFactor(a + b, |a|, b, p);
    }
  }

  /** Every part occurs in the joined text. */
  lemma {:induction false} JoinContainsPart(parts: seq<string>, sep: string, k: nat)
    requires k < |parts|
    decreases |parts|
    ensures Contains(Join(parts, sep), parts[k])
  {
    if |parts| == 1 {
      assert OccursAt(parts[0], parts[0], 0);
    } else if k == 0 {
      ContainsMiddle("", parts[0], sep + Join(parts[1..], sep));
      assert "" + parts[0] + (sep + Join(parts[1..], sep)) == Join(parts, sep);
    } else {
      JoinContainsPart(parts[1..], sep, k - 1);
      ContainsInConcat(parts[0] + sep, Join(parts[1..], sep), parts[k]);
    }
  }

  /** Characters Python's `str.isspace` (hence `strip` and the regex `\s`) accepts. */
  predicate IsSpace(c: char) {
    ('\t' <= c <= '\r') || ('\U{1c}' <= c <= '\U{1f}') || c == ' ' || c == '\U{85}'
    || c == '\U{a0}' || c == '\U{1680}' || ('\U{2000}' <= c <= '\U{200a}')
    || c == '\U{2028}' || c == '\U{2029}' || c == '\U{202f}' || c == '\U{205f}'
    || c == '\U{3000}'
  }

  /** Number of whitespace characters at the start of `s`. */
  function LeadingSpace(s: string): (n: nat)
    ensures n <= |s|
    ensures forall k :: 0 <= k < n ==> IsSpace(s[k])
    ensures n < |s| ==> !IsSpace(s[n])
  {
    if |s| == 0 || !IsSpace(s[0]) then 0 else 1 + LeadingSpace(s[1..])
  }

  /** Number of whitespace characters at the end of `s`. */
  function TrailingSpace(s: string): (n: nat)
    ensures n <= |s|
    ensures forall k :: |s| - n <= k < |s| ==> IsSpace(s[k])
    ensures n < |s| ==> !IsSpace(s[|s| - 1 - n])
  {
    if |s| == 0 || !IsSpace(s[|s| - 1]) then 0 else 1 + TrailingSpace(s[..|s| - 1])
  }

  /** Python's `s.strip()`: `s` with the whitespace at both ends removed. */
  function Strip(s: string): (r: string)
    ensures |r| <= |s|
  {
    var a := LeadingSpace(s);
    var t := s[a..];
    t[..|t| - TrailingSpace(t)]
  }

  /** `strip` keeps the factor of `s` between its leading and its trailing
      whitespace, and what it removes is whitespace. */
  lemma StripIsFactor(s: string)
    ensures LeadingSpace(s) + |Strip(s)| <= |s|
    ensures Strip(s) == s[LeadingSpace(s)..LeadingSpace(s) + |Strip(s)|]
    ensures forall k :: 0 <= k < LeadingSpace(s) ==> IsSpace(s[k])
    ensures forall k :: LeadingSpace(s) + |Strip(s)| <= k < |s| ==> IsSpace(s[k])
  {
    var a := LeadingSpace(s);
    var t := s[a..];
    var b := TrailingSpace(t);
    assert Strip(s) == t[..|t| - b];
    assert t[..|t| - b] == s[a..|s| - b];
    SuffixTrailingSpace(s, a);
  }

  /** The whitespace at the end of a suffix is whitespace of the whole. */
  lemma SuffixTrailingSpace(s: string, a: nat)
    requires a <= |s|
    ensures forall k :: |s| - TrailingSpace(s[a..]) <= k < |s| ==> IsSpace(s[k])
  {
    var t := s[a..];
    forall k | |s| - TrailingSpace(t) <= k < |s|
      ensures IsSpace(s[k])
    {
      assert s[k] == t[k - a];
    }
  }

  /** The ends of what `strip` keeps are not whitespace, and the result is
      empty exactly when `s` is all whitespace. */
  lemma StripEnds(s: string)
    ensures Strip(s) == "" || (!IsSpace(Strip(s)[0]) && !IsSpace(Strip(s)[|Strip(s)| - 1]))
    ensures Strip(s) == "" <==> forall k :: 0 <= k < |s| ==> IsSpace(s[k])
  {
  }

  /** Stripping twice is stripping once. */
  lemma StripIdempotent(s: string)
    ensures Strip(Strip(s)) == Strip(s)
  {
    var r := Strip(s);
    StripEnds(s);
    assert LeadingSpace(r) == 0;
    assert TrailingSpace(r) == 0;
  }

  /** A text found inside a factor of `s` is found inside `s`. */
  lemma ContainsInFactor(s: string, a: nat, t: string, p: string)
    requires a + |t| <= |s| && t == s[a..a + |t|]
    requires Contains(t, p)
    ensures Contains(s, p)
  {
    var i :| 0 <= i <= |t| - |p| && OccursAt(t, p, i);
    assert forall k :: i <= k < i + |p| ==> t[k] == s[a + k];
    assert s[a + i..a + i + |p|] == t[i..i + |p|];
    assert OccursAt(s, p, a + i);
  }

  /** Stripping never introduces a text that was not there. */
  lemma StripKeepsAbsence(s: string, p: string)
    requires !Contains(s, p)
    ensures !Contains(Strip(s), p)
  {
    if Contains(Strip(s), p) {
      StripIsFactor(s);
      ContainsInFactor(s, LeadingSpace(s), Strip(s), p);
    }
  }

  /** ASCII lower-casing of one character. */
  function LowerChar(c: char): char {
    if 'A' <= c <= 'Z' then (c as int + 32) as char else c
  }

  /** Python's `s.lower()`, restricted to ASCII letters. */
  function Lower(s: string): (r: string)
    ensures |r| == |s|
    ensures forall k :: 0 <= k < |s| ==> r[k] == LowerChar(s[k])
  {
    seq(|s|, k requires 0 <= k < |s| => LowerChar(s[k]))
  }

  /** The least index in `[k, n)` where `p` holds: a left-to-right search. */
  function FirstWhere(p: nat -> bool, k: nat, n: nat): (r: Option<nat>)
    decreases n - k
    ensures r.Some? ==> k <= r.value < n && p(r.value)
  {
    if k >= n then None
    else if p(k) then Some(k)
    else FirstWhere(p, k + 1, n)
  }

  /** The search finds the leftmost index, and `None` means there is none. */
  lemma {:induction false} FirstWhereIsLeftmost(p: nat -> bool, k: nat, n: nat)
    decreases n - k
    ensures var r := FirstWhere(p, k, n);
      forall j :: k <= j < n && (r.None? || j < r.value) ==> !p(j)
  {
    if k < n && !p(k) {
      FirstWhereIsLeftmost(p, k + 1, n);
    }
  }

  /** The greatest index below `n` where `p` holds, or -1: a right-to-left
      search. */
  function LastWhere(p: nat -> bool, n: nat): (r: int)
    ensures -1 <= r < n
    ensures r >= 0 ==> p(r)
    ensures forall m: nat :: r < m < n ==> !p(m)
  {
    if n == 0 then -1
    else if p(n - 1) then n - 1
    else LastWhere(p, n - 1)
  }

  /** Python's `[f(x) for x in xs]`. */
  function MapSeq<A, B>(xs: seq<A>, f: A -> B): (r: seq<B>)
    ensures |r| == |xs|
    ensures forall i :: 0 <= i < |xs| ==> r[i] == f(xs[i])
  {
    if |xs| == 0 then [] else [f(xs[0])] + MapSeq(xs[1..], f)
  }

  /** Python's `s[:n]`, on strings and lists. */
  function Take<T>(s: seq<T>, n: nat): (r: seq<T>)
    ensures |r| <= n && |r| <= |s| && r == s[..|r|]
    ensures |s| <= n ==> r == s
    ensures |s| > n ==> |r| == n
  {
    if |s| <= n then s else s[..n]
  }
  /** Mapping over the first `n` elements maps the elements of `xs` in order. */
  lemma MapTake<A, B>(xs: seq<A>, n: nat, f: A -> B)
    ensures |MapSeq(Take(xs, n), f)| == if |xs| < n then |xs| else n
    ensures forall i :: 0 <= i < |MapSeq(Take(xs, n), f)| ==> MapSeq(Take(xs, n), f)[i] == f(xs[i])
  {
    var kept := Take(xs, n);
    assert forall i :: 0 <= i < |kept| ==> kept[i] == xs[i];
  }


  predicate IsDigit(c: char) {
    '0' <= c <= '9'
  }

  /** Length of the run of decimal digits starting at index `i`. */
  function DigitRun(s: string, i: nat): (n: nat)
    decreases |s| - i
    ensures i + n <= |s| || (i > |s| && n == 0)
    ensures forall k :: i <= k < i + n ==> IsDigit(s[k])
    ensures i + n < |s| ==> !IsDigit(s[i + n])
  {
    if i < |s| && IsDigit(s[i]) then 1 + DigitRun(s, i + 1) else 0
  }

  /** Length of the run of whitespace starting at index `i`. */
  function SpaceRun(s: string, i: nat): (n: nat)
    decreases |s| - i
    ensures i + n <= |s| || (i > |s| && n == 0)
    ensures forall k :: i <= k < i + n ==> IsSpace(s[k])
    ensures i + n < |s| ==> !IsSpace(s[i + n])
  {
    if i < |s| && IsSpace(s[i]) then 1 + SpaceRun(s, i + 1) else 0
  }

  /** Python's `int(d)` for a string of decimal digits. */
  function DigitsValue(d: string): nat
    requires forall k :: 0 <= k < |d| ==> IsDigit(d[k])
  {
    if |d| == 0 then 0
    else
      var last := d[|d| - 1];
      assert IsDigit(last);
      DigitsValue(d[..|d| - 1]) * 10 + (last as int - '0' as int)
  }
}

=== FILE: wrappers.dfy ===
/** Optional values and success/failure results, used wherever the Python code
    returns `None` or raises an exception. */
module Wrappers {

  datatype Option<+T> = None | Some(value: T) {

    /** The wrapped value, or `default` when there is none (Python's `x or default`). */
    function GetOr(default: T): T {
      match this
      case Some(v) => v
      case None => default
    }
  }

  /** `Failure` carries the message of the exception the Python code would raise. */
  datatype Result<+R, +E> = Success(value: R) | Failure(error: E)
}
